=== FILE: README.md ===
# Life-insurance application core, modelled in Dafny

A model of the client-side core of a life-insurance data-collection app.
Field agents fill in a ten-step application wizard. They can save it as a
draft or submit it with scanned or uploaded documents. A dashboard lists
drafts and submitted applications and opens them for resuming, viewing or
editing. Persistence goes through a Supabase table `policies` and a storage
bucket `policy-documents`.

Modules (one per source concern):

- `Outcomes`: `Option`/`Result`, standing for null/undefined and for resolved/rejected promises.
- `JsText`: the JavaScript string operations the core relies on. These are `trim` (ECMAScript white space), `startsWith` and `${n}` for integers. It also holds the one-character searches the model uses to parse upload paths back.
- `PolicyData`: the form (a map from field name to value), documents with their three file states, rows of the `policies` table.
- `Storage` (`src/utils/storage.js`):
  - the status mapping;
  - the update-or-insert rule keyed on the id's length;
  - wrapping a form into a row and unwrapping a row;
  - listing, counting and deleting with their error swallowing;
  - the sanitised upload path.
- `Reconcile` (`handleSubmit` in `src/components/CustomerForm.jsx`): the submit-time pass that uploads pending documents. It contains both the rule as written and the corrected rule.
- `CustomerForm` (`src/components/CustomerForm.jsx`): the wizard as a state machine. This covers the step cursor, read-only guards, field and list edits, camera capture, draft save and submission.
- `Dashboard` (`src/components/Dashboard.jsx`): views, fetching, entry modes of the wizard, deletion and admin gating.

The Supabase client is replaced by values:

- a `Table` of records, oldest first;
- a `Link`, meaning the store answers or it does not;
- an `Uploader`: a function from upload request to URL or refusal.

The clock, server-assigned ids, the camera frame, `FileReader` results, the date parser, the `confirm` dialog and the profile query's role are all parameters.

## Model

| member | source | states |
|---|---|---|
| Storage.StatusName | src/utils/storage.js:32 | A status is written as `DRAFT` exactly when it is the draft status. |
| Storage.StatusOf | src/utils/storage.js:32 | The status written is Draft exactly when `isDraft` holds, and Submitted exactly when it does not. |
| Storage.StatusNameRoundTrip | src/utils/storage.js:32 | The two column texts `DRAFT` and `SUBMITTED` are distinct, and each reads back as the status written. |
| Storage.SerializeDocument | src/utils/storage.js:37 | Storing a document as JSON loses only its in-memory `File`. The `File` becomes a nameless object, and a document without one is unchanged. |
| Storage.SerializeValueFacts | src/utils/storage.js:37 | JSON changes a value only when it holds a live `File`. The result holds none, and storing it again changes nothing. |
| Storage.FormPayload | src/utils/storage.js:33-39 | The stored `form_data` never contains `id`. It keeps every other key of the form, each as JSON stores it. |
| Storage.Unwrap | src/utils/storage.js:17-22 | A row read back has the row's `id`, `lastModified` and `status` overriding same-named form keys. Every other `form_data` key is unchanged, and no other key is added. |
| Storage.SavedView | src/utils/storage.js:66-70 | The value a save resolves with has the row's `id` and `status` overriding. Every other key, `lastModified` included, comes from `form_data`. |
| Storage.UsesUpdatePath | src/utils/storage.js:46 | `id && id.length > 20`: a text id takes the update path exactly when it is longer than 20 characters. A missing, null or numeric id never does. |
| Storage.RowIndex | src/utils/storage.js:50 | `.eq('id', id)` selects a row carrying exactly that id, and finds none only when no row has it. |
| Storage.SavePolicy | src/utils/storage.js:30-75 | A save fails exactly when the store is unreachable, or an update finds no row, or an insert's new id is taken; the error is rethrown. It updates the matching row in place exactly when the id is longer than 20 characters, and otherwise appends one new row. In both cases the row gets the status and payload written. |
| Storage.SavePreservesUniqueIds | src/utils/storage.js:46-64 | A successful save keeps the table's ids unique. |
| Storage.SavedViewReflectsInput | src/utils/storage.js:66-70 | The value a save resolves with carries the written status and the row's id, which is the new id for an insert and the form's id for an update. Every other input key comes back as stored. |
| Storage.ListStatus | src/utils/storage.js:8-22 | The list holds the rows of the given status, unwrapped, and nothing else; its length is the number of such rows. |
| Storage.ListStatusNewestFirst | src/utils/storage.js:12 | `order('created_at', { ascending: false })`: a row is listed after exactly the rows of its status created after it, so the list runs newest first. |
| Storage.GetPolicies | src/utils/storage.js:6-27 | When the store is reachable, the list holds exactly the rows of the requested status, unwrapped and newest first: each row sits after exactly the rows of its status created after it. On an error it is `[]`. |
| Storage.GetCounts | src/utils/storage.js:89-110 | The counts are the numbers of submitted and of draft rows, and both are 0 when the store fails. |
| Storage.CountsPartition | src/utils/storage.js:92-100 | Every row counts as exactly one of submitted or draft. |
| Storage.CountsMatchLists | src/utils/storage.js:89-110 | Each count equals the length of the corresponding list, and together the counts add up to the table's size. |
| Storage.UnwrapPayload | src/utils/storage.js:17-22 | A row written from a form reads back with the same non-metadata keys and values, up to JSON. |
| Storage.SaveThenList | src/utils/storage.js:30-75 | After a successful save, listing the written status yields a policy with the saved id and status that reads back as the saved form. |
| Storage.DeletePolicy | src/utils/storage.js:77-87 | A delete never fails. When the store answers, the rows with the id are gone, and every other row stays exactly once and in its original order. When the store does not answer, the table is unchanged. |
| Storage.Without | src/utils/storage.js:79-82 | The remaining rows are the rows without the id, in their original order. A kept row sits after exactly the kept rows before it. There are as many remaining rows as kept rows, so none is repeated or invented. |
| Storage.WithoutKeepsUniqueIds | src/utils/storage.js:79-82 | Removing the rows with an id keeps the remaining ids unique. |
| Storage.DeleteKeepsUniqueIds | src/utils/storage.js:77-87 | A delete, whether or not the store answers, keeps the table's ids unique. |
| Storage.Sanitize | src/utils/storage.js:115 | The safe name has the input's length. Characters in `[a-zA-Z0-9.-]` are kept, and every other character becomes `_`. |
| Storage.SanitizedHasNoSlash | src/utils/storage.js:115 | A safe name never contains a path separator. |
| Storage.SanitizeIdempotent | src/utils/storage.js:115 | Sanitising twice is sanitising once. |
| Storage.UploadPathRoundTrip | src/utils/storage.js:114-120 | From an upload path one can read back its folder, its timestamp and its sanitised name, so uploads that differ in folder, timestamp or sanitised name get distinct paths. |
| Storage.UploadPath | src/utils/storage.js:118-120 | The object path starts with `folder/` when there is a folder and ends with `_` and the safe name. |
| Storage.RequestFor | src/utils/storage.js:112-124 | An upload goes to the `policy-documents` bucket under the folder/timestamp/safe-name path. No request is made when the object has no name. |
| Storage.UploadFile | src/utils/storage.js:112-137 | Uploading resolves with the bucket's URL. A nameless object and a refused upload are rethrown as errors. |
| JsText.Trim | src/components/CustomerForm.jsx:155 | `trim()` gives the text with white space cut off at both ends and nothing else removed. It leaves no white space at either end, and yields the empty string exactly when the text is all white space. |
| JsText.TrimIdempotent | src/components/CustomerForm.jsx:155 | Trimming a trimmed name changes nothing. |
| JsText.DecimalString | src/utils/storage.js:114-119 | `${timestamp}` is a non-empty run of decimal digits without a leading zero, except for 0 itself. |
| JsText.ParseDecimalString | src/utils/storage.js:119 | The decimal text of a timestamp reads back as the timestamp. |
| Reconcile.FolderName | src/components/CustomerForm.jsx:155 | The upload folder is the trimmed full name, or `Unnamed_Customer` when that is empty, so it is never empty. |
| Reconcile.FolderFallsBackOnBlankName | src/components/CustomerForm.jsx:155 | With text names, the folder falls back exactly when both names are blank. Otherwise it is the trimmed `first last`. |
| Reconcile.ObjectList | src/components/CustomerForm.jsx:155 | An array of `n` objects renders as `n` copies of `[object Object]` joined by commas, so it is empty exactly when the array is. |
| Reconcile.FieldText | src/components/CustomerForm.jsx:155 | A field renders inside the template literal as its text. Only an empty text or an empty list renders as nothing; a missing field renders as `undefined` and a null one as `null`. |
| Reconcile.NeedsUpload | src/components/CustomerForm.jsx:152-162 | Corrected rule: a document with a live `File` is always pending. Any other document is pending exactly when its `data` is a `data:` URL, so a stored `File` alone does not make it pending. |
| Reconcile.NeedsUploadAsWritten | src/components/CustomerForm.jsx:152-162 | As written, a document goes to upload when it is pending under the corrected rule, or when it holds the nameless object a stored `File` becomes. |
| Reconcile.Uploaded | src/components/CustomerForm.jsx:157 | An uploaded document carries its URL, keeps its name, size and type, needs no further upload, and is stored by JSON unchanged. |
| Reconcile.SourceBlob | src/components/CustomerForm.jsx:152-168 | What is uploaded for a pending document always has a name. |
| Reconcile.ReconcileDoc | src/components/CustomerForm.jsx:151-180 | Corrected rule (first Findings row). A document with a `File` or a `data:` URL is uploaded. It then gets the URL with `data` and `file` cleared, or the failure is rethrown. Any other document passes through unchanged, and no output is pending. |
| Reconcile.ReconcileAll | src/components/CustomerForm.jsx:151-180 | Under the corrected rule of the first Findings row, the pass succeeds exactly when every document does. The output has the input's length and order, and on failure the error is that of a failing document. |
| Reconcile.UploadRequests | src/components/CustomerForm.jsx:151-177 | Exactly one upload is issued per pending document and none for any other, in list order. A list with no pending document issues none. |
| Reconcile.SamePathIffSameStoredName | src/utils/storage.js:114-120 | Within one pass, with one folder and one timestamp, two pending documents get the same object path exactly when their file names sanitise to the same name. |
| Reconcile.SpaceAndUnderscoreCollide | src/utils/storage.js:115 | Two distinct chosen files named `a b.pdf` and `a_b.pdf` are sent to the same object path in one pass. |
| Reconcile.DistinctNamesDistinctPaths | src/components/CustomerForm.jsx:152-156 | When the pending documents' names sanitise to pairwise distinct names, their uploads in one pass go to pairwise distinct paths. |
| Reconcile.OneFailureFailsAll | src/components/CustomerForm.jsx:158-161 | One refused upload fails the whole pass. |
| Reconcile.AcceptedUploadsSucceed | src/components/CustomerForm.jsx:151-180 | When every upload is accepted, the pass succeeds. |
| Reconcile.SecondPassIsIdle | src/components/CustomerForm.jsx:151-180 | A second pass over a successful pass's output uploads nothing and returns the list unchanged. |
| Reconcile.ReconcileDocAsWritten | src/components/CustomerForm.jsx:152-157 | The code's `if (doc.file)` also fires on the nameless object a stored `File` becomes, and that document always fails. |
| Reconcile.StoredFileFailsAsWritten | src/components/CustomerForm.jsx:152-157 | As written, a file-dialog document kept in a saved draft can never be submitted, whatever the bucket would answer. |
| Reconcile.StoredFileUploadsCorrected | src/components/CustomerForm.jsx:162-172 | Under the corrected rule that document is uploaded from its saved data URL, and it succeeds exactly when the bucket accepts. |
| Reconcile.CorrectedAgreesWithoutDetachedFiles | src/components/CustomerForm.jsx:151-180 | The corrected rule and the code agree on every document that holds no stored `File`. |
| CustomerForm.DropIndex | src/components/CustomerForm.jsx:90 | `filter((_, k) => k !== i)` removes exactly the element at `i` and keeps the rest in order. An index outside the list removes nothing. |
| CustomerForm.BlankForm | src/components/CustomerForm.jsx:20-41 | A new application has no id, empty document, family and previous-policy lists, and text in every other field, with a blank nominee date. |
| CustomerForm.Mount | src/components/CustomerForm.jsx:18-41 | The wizard opens on the given step with the given record. Without a record it opens on a blank form that has all three lists empty and no id. |
| CustomerForm.BlankFormIsNew | src/components/CustomerForm.jsx:20-41 | A new application's first save inserts one new row instead of updating one. |
| CustomerForm.NextStep | src/components/CustomerForm.jsx:200 | "Next" advances by one only below step 10 and changes nothing else, so a step in 1..10 stays in 1..10. |
| CustomerForm.PrevStep | src/components/CustomerForm.jsx:201 | "Back" retreats by one only above step 1 and changes nothing else, so a step in 1..10 stays in 1..10. |
| CustomerForm.NextPrevInverse | src/components/CustomerForm.jsx:200-201 | Back undoes Next, and Next undoes Back, inside the step range. |
| CustomerForm.JumpTo | src/components/CustomerForm.jsx:216-217 | The summary's "Edit" button moves to its section's step, only outside read-only mode. |
| CustomerForm.HandleChange | src/components/CustomerForm.jsx:67-71 | A field change sets exactly the named field to the typed text, keeps every other field, and is a no-op in read-only mode. |
| CustomerForm.Tenths | src/components/CustomerForm.jsx:82 | `(size/1024).toFixed(1)` picks the nearest tenth of a kilobyte, with ties going up. |
| CustomerForm.SizeLabel | src/components/CustomerForm.jsx:82 | The size label ends in ` KB`, with a decimal point before the single decimal digit. |
| CustomerForm.SizeLabelReadsBack | src/components/CustomerForm.jsx:82 | The size label is the digits, a point, one decimal and ` KB`, and it reads back as the rounded size. |
| CustomerForm.DocFor | src/components/CustomerForm.jsx:82 | A chosen file's entry keeps the file's name, type and read data URL, has the `KB` size label and no URL, and is pending with the `File` itself as what is uploaded. |
| CustomerForm.NewDocs | src/components/CustomerForm.jsx:76-84 | Each file that was read gives exactly one entry holding its `File` and data URL, at the position given by the readable files before it, so entries keep the files' order. A file whose read fails is skipped, and every new entry is pending upload. |
| CustomerForm.HandleFileChange | src/components/CustomerForm.jsx:74-86 | Chosen files are appended after the existing documents and nothing else changes. It is a no-op in read-only mode. |
| CustomerForm.RemoveDocument | src/components/CustomerForm.jsx:88-92 | Removing document `i` removes exactly that one, keeps the order of the rest, and is a no-op in read-only mode. |
| CustomerForm.AddThenRemoveFile | src/components/CustomerForm.jsx:74-92 | Choosing a file and then removing the last document restores the wizard. |
| CustomerForm.StartCamera | src/components/CustomerForm.jsx:95-107 | The camera overlay opens when access is granted and never opens in read-only mode. |
| CustomerForm.StopCamera | src/components/CustomerForm.jsx:109-115 | Stopping the camera only closes the overlay. |
| CustomerForm.CaptureImage | src/components/CustomerForm.jsx:117-129 | A capture appends one JPEG entry named after the time and closes the overlay, with nothing else changing. Without the overlay it does nothing. |
| CustomerForm.ScannedDoc | src/components/CustomerForm.jsx:126 | A captured frame's entry is named `scanned_…jpg`, is a JPEG holding the frame's data URL and no URL, and survives JSON unchanged. |
| CustomerForm.CapturedFrameIsUploaded | src/components/CustomerForm.jsx:162-172 | A captured frame is pending until submit, when it is uploaded from its data URL under its generated name. |
| CustomerForm.AddRow | src/components/CustomerForm.jsx:204-207 | "Add Member" and "Add Policy" append the default row and change nothing else. They are no-ops in read-only mode. |
| CustomerForm.UpdateRow | src/components/CustomerForm.jsx:205-208 | Editing a row cell changes only that cell. An index outside the list throws before any update, so nothing changes. |
| CustomerForm.RemoveRow | src/components/CustomerForm.jsx:206-209 | Removing row `i` removes exactly that row and keeps the order of the rest. |
| CustomerForm.AddThenRemoveRow | src/components/CustomerForm.jsx:204-209 | Adding a row and removing it again restores the wizard. |
| CustomerForm.Replay | src/components/CustomerForm.jsx:67-217 | No edit changes whether the wizard is read-only. |
| CustomerForm.ReadOnlyFreezesForm | src/components/CustomerForm.jsx:67-209 | In read-only mode no sequence of edits changes the form or opens the camera. |
| CustomerForm.EditsKeepInvariants | src/components/CustomerForm.jsx:200-209 | Every sequence of edits keeps the step in 1..10 and keeps the three lists in place. |
| CustomerForm.GetAge | src/components/CustomerForm.jsx:50-54 | A blank date is age 0 and an unparsable date is NaN. Otherwise the age is the absolute number of elapsed years. |
| CustomerForm.IsNomineeMinor | src/components/CustomerForm.jsx:56 | A blank nominee date counts as a minor (age 0), and a date that does not parse never does (NaN). |
| CustomerForm.MinorWhen | src/components/CustomerForm.jsx:56 | The nominee counts as a minor exactly when the date is blank or lies within 18 years of now; an invalid date never counts. |
| CustomerForm.SaveDraft | src/components/CustomerForm.jsx:133-144 | A draft save succeeds or fails exactly as saving the form unchanged with draft status does, yields that save's table, and never shrinks the table. |
| CustomerForm.DraftIsListed | src/components/CustomerForm.jsx:133-137 | A saved draft is listed among the drafts with status DRAFT and reads back as the form as it was. |
| CustomerForm.SubmitForm | src/components/CustomerForm.jsx:146-199 | Uses the corrected upload rule of the first Findings row. A failed upload aborts the submission with its error before any save. A submission succeeds only after every upload succeeded, and it never shrinks the table. |
| CustomerForm.SettledDocuments | src/components/CustomerForm.jsx:151-182 | The list a submission saves has the form's length and names, with nothing pending and no `File` left for JSON to lose. |
| CustomerForm.SubmittedReadBack | src/components/CustomerForm.jsx:182-183 | The saved row reads back with the settled documents and every other field of the form. |
| CustomerForm.SubmittedRecordIsComplete | src/components/CustomerForm.jsx:146-199 | After a successful submission, the submitted list holds a row with status SUBMITTED. It has every document in order under the same name, none pending, and every other field as the form had it. |
| CustomerForm.RefusedUploadStopsSubmit | src/components/CustomerForm.jsx:151-196 | One refused upload means nothing is saved. |
| CustomerForm.SubmitInsertsNewRow | src/components/CustomerForm.jsx:182-183 | When the uploads go through and the store answers, submitting a form without an id inserts exactly one new row, with status SUBMITTED. |
| CustomerForm.HandleClickAsWritten | src/components/CustomerForm.jsx:355-356 | As written, the summary's submit button submits only with the declaration ticked. The documents step's preview and remove buttons have no `type`, so inside the `<form>` of line 504 they submit too. The preview button always submits. The remove button removes its document and then submits what is left, unless it belonged to the last document and so is no longer in the form. |
| CustomerForm.PreviewSubmitsAsWritten | src/components/CustomerForm.jsx:355 | As written, clicking a document's preview on the documents step stores the application as SUBMITTED, without the summary or the declaration. |
| CustomerForm.RemoveSubmitsAsWritten | src/components/CustomerForm.jsx:356 | As written, removing any document but the last on the documents step stores the rest of a new application as SUBMITTED once its uploads go through. |
| CustomerForm.HandleClick | src/components/CustomerForm.jsx:529 | Corrected: a submission happens exactly on the summary's submit button, with the required declaration of line 464 ticked and outside read-only mode. The remove button only removes its document. |
| CustomerForm.ClickAgreesOnSubmitButton | src/components/CustomerForm.jsx:529 | The corrected click handler and the markup agree on the submit button itself. |
| CustomerForm.ClickAgreesOnWizard | src/components/CustomerForm.jsx:355-356 | The corrected click handler and the markup leave the wizard in the same state on every click; they differ only in whether a submission starts. |
| Dashboard.Initial | src/components/Dashboard.jsx:12-20 | The dashboard starts with zero counts, no role and no record, with the wizard mounted only on the form view. |
| Dashboard.FetchData | src/components/Dashboard.jsx:39-57 | The counts are always refreshed. The submitted list loads only on the data view and the draft list only on the drafts view, and nothing else changes. |
| Dashboard.FetchIdempotent | src/components/Dashboard.jsx:39-57 | Fetching twice from the same table is fetching once. |
| Dashboard.FetchedCountsMatchList | src/components/Dashboard.jsx:42-50 | After a fetch from a reachable store, the count for the list on screen equals its length. |
| Dashboard.Synced | src/components/Dashboard.jsx:93 | Once the mounted wizard's read-only flag follows the dashboard's, a dashboard that mounts the wizard exactly on the form view is consistent. |
| Dashboard.SetView | src/components/Dashboard.jsx:22-25 | A change of view refetches the counts, and the submitted or draft list when the new view shows it, and refreshes the role; setting the same view fetches nothing. Entering the form mounts the wizard from the entry settings, and leaving it unmounts it. |
| Dashboard.StartNew | src/components/Dashboard.jsx:59-64 | A new application opens the wizard with no record, on step 1, editable. |
| Dashboard.ResumeDraft | src/components/Dashboard.jsx:66-71 | Resuming opens the wizard on that draft, on step 1, editable. |
| Dashboard.ViewSubmitted | src/components/Dashboard.jsx:140-145 | Viewing opens the wizard on that policy, on step 10, read-only. |
| Dashboard.EditApplication | src/components/Dashboard.jsx:96 | "Edit Application" only clears read-only. The record, the start step, and the wizard's step and form are unchanged. |
| Dashboard.FormClose | src/components/Dashboard.jsx:73-76 | Closing or finishing the form returns to home and unmounts the wizard. The counts are refetched and the lists are left as they were. |
| Dashboard.ViewThenEdit | src/components/Dashboard.jsx:140-145 | Viewing a submitted policy and pressing Edit leaves an editable wizard on the summary holding that policy. |
| Dashboard.ResumedDraftSavesInPlace | src/components/Dashboard.jsx:66-71 | A resumed draft carries its row's server id, which is longer than 20 characters. Saving it again while the store answers therefore updates that row in place as a draft and adds no row. |
| Dashboard.Delete | src/components/Dashboard.jsx:78-87 | Only a confirmed delete touches the store, and it is followed by a refetch. |
| Dashboard.DeletedDraftIsGone | src/components/Dashboard.jsx:78-87 | After a confirmed delete on the drafts view, no listed draft carries the deleted id. |
| Dashboard.DeleteKeepsOtherDrafts | src/components/Dashboard.jsx:78-87 | After a confirmed delete on the drafts view, every draft with another id is still listed. |
| Dashboard.ScreenOf | src/components/Dashboard.jsx:89-169 | The form is shown exactly on the form view, the welcome card exactly on home, and the policy table exactly on the data and drafts views, holding the submitted or the draft list. |
| Dashboard.AdminGate | src/components/Dashboard.jsx:166 | The admin panel is shown exactly on the admin view for a user whose role is `admin`. |
| Dashboard.RunKeepsConsistent | src/components/Dashboard.jsx:89-97 | In every session the wizard is mounted exactly on the form view, and its read-only flag matches the dashboard's. |
| Dashboard.ViewingFreezesPolicy | src/components/Dashboard.jsx:140-145 | A policy opened for viewing cannot be changed by any wizard edit until Edit is pressed. |

## Left out

- Rendering: JSX, styles, the stepper, the summary layout and all alerts. Only the buttons whose clicks carry logic are modelled.
- `Sidebar.jsx`, `PolicyList.jsx`, `Profile.jsx`, `Settings.jsx`, `AdminPanel.jsx`, `Login.jsx`, `Header.jsx` and `App.jsx` are not part of this model. They are display, authentication and browser plumbing.
- The Supabase client is not part of this model. It is replaced by a `Table`, a `Link` and an `Uploader`, and the dummy fallback client counts as a store that never answers.
- Storage.GetCounts: both count queries share one `Link`, so a store that answers one and fails the other is not represented.
- Storage.ListStatus: `order('created_at', desc)` is taken as the reverse of the table's order, which is insertion order. Updates do not move rows.
- Storage.SavePolicy: `updated_at` (`new Date().toISOString()`) and the id the database assigns on insert are parameters.
- Storage.Sanitize: characters are Unicode scalar values. JavaScript replaces each UTF-16 code unit, so a character outside the Basic Multilingual Plane yields two `_` in the code but one in the model.
- JsText.DecimalString: `Date.now()` is taken below 10^21, where JavaScript switches to exponent notation.
- CustomerForm.GetAge: the date arithmetic (`Date.now()`, `new Date(dob)`, `getUTCFullYear`) is a parameter, namely the elapsed years or `None` for an invalid date.
- Camera, `getUserMedia`, canvas and `FileReader` are browser I/O. A grant or refusal, the frame's data URL and each file's read result are parameters.
- Reconcile.ReconcileAll: `Promise.all` starts every upload at once. The model maps the list in order, so the error returned is the first failing document in list order rather than the first to fail in time. One timestamp serves the whole pass, whereas the code reads the clock per upload.
- Reconcile.ReconcileAll, Reconcile.AcceptedUploadsSucceed: the bucket's `upload` is called without `upsert`, so the store refuses an upload to a path that already exists. Within one pass, the documents holding a `File` reach `uploadFile` in the same synchronous `map` and usually read the same `Date.now()`. Two such documents whose names sanitise alike (the same file chosen twice, or `a b.pdf` and `a_b.pdf`) then share a path, and the second upload is refused, failing the submission. The `Uploader` is a function of the request alone and cannot remember a path taken earlier in the pass, so the model can accept both. `Reconcile.SamePathIffSameStoredName` and `Reconcile.SpaceAndUnderscoreCollide` state when such a collision happens; `Reconcile.DistinctNamesDistinctPaths` states that it cannot happen when the sanitised names are distinct. A path taken by an earlier submission is not represented either.
- Reconcile.ReconcileAll, CustomerForm.SubmitForm: both follow the corrected rule of the first Findings row. A stored `File` uploads from its data URL here, where the code as written fails; `Reconcile.ReconcileDocAsWritten` models the code's behaviour.
- The `fetch` of a data URL into a `Blob` is not modelled: a data URL is taken to convert.
- CustomerForm.HandleFileChange: a list value that is a string is spread into characters by JavaScript. The model treats every non-list value like a missing list.
- CustomerForm.HandleFileChange, CustomerForm.CaptureImage, CustomerForm.AddRow, CustomerForm.RemoveRow: on a missing or non-list value these handlers throw inside the updater passed to `setFormData`. React runs the updater while rendering, so the error is a render error that unmounts the application. The model does not represent the crash and leaves the wizard unchanged. `CustomerForm.RemoveDocument` and `CustomerForm.UpdateRow` throw in the handler itself, before any update, so for them "unchanged" is what the code does.
- Handlers that read the render's `formData` instead of React's `prev` behave identically when events are applied one at a time, which is how the model applies them. Two updates queued within one render are not modelled.
- CustomerForm.UpdateRow: the code writes the cell into the row object in place (CustomerForm.jsx:205 and :208). A resumed or viewed record's rows are the same objects as the dashboard's `editingPolicy` and its fetched list. So after the form closes, the edited cell survives in `editingPolicy`, and a later remount of the form view shows it. That remount happens, for example, when the browser's Back button sets the view to `form` again. The model keeps records immutable: `Dashboard.SetView` remounts the record as it was fetched, and the fetched lists keep their rows. The aliasing between the wizard and the dashboard is not modelled.
- The `isSaving`, `loading` and `previewDoc` flags, the double `fetchData` race in `handleFormClose`, and `console` logging are not modelled.
- Dashboard.SetView: a profile row whose `role` is null is not distinguished from no profile row.
- Dashboard.Delete: the `confirm` dialog is a boolean parameter. A policy without an `id` deletes with `null`, which matches no row.
- The specification of this system also describes share grants, notifications, realtime refresh, owner metadata and appointee validation. No code implements them, so they are not modelled.
- The specification suggests an explicit persisted/not-persisted tag. The code infers it from the id's length, and the model follows the code.
- The specification says `formData` never embeds store metadata. The code strips only `id`, so a resumed record's `status` and `lastModified` are written back into `form_data`. The model keeps them; on read they are overridden.

## Findings

| source | as written | input that shows it | evidently intended | confidence | as-written member | corrected member |
|---|---|---|---|---|---|---|
| src/components/CustomerForm.jsx:152 | `if (doc.file)` is also true of `{}`, which is what a `File` becomes once a draft is stored as JSON. That object goes to `uploadFile`, where `file.name.replace` throws. | Attach a file through the file dialog, save a draft, resume it and submit: the submission always fails. | Treat a stored `{}` as no file, and upload from the document's saved `data:` URL as for a captured photo. | not executed; relies on `JSON.stringify` writing a `File` as `{}` | Reconcile.ReconcileDocAsWritten, Reconcile.StoredFileFailsAsWritten | Reconcile.ReconcileDoc, Reconcile.StoredFileUploadsCorrected |
| src/components/CustomerForm.jsx:355 | The document preview button has no `type`, so inside `<form onSubmit={handleSubmit}>` it is a submit button. The documents step has no required field to stop it. | On the documents step of a new application with one attached document, click its preview icon: the application is stored as SUBMITTED. | The preview button only opens the preview (`type="button"`), so that only the summary's submit button with the declaration ticked submits. | not executed; follows from HTML's default button type | CustomerForm.HandleClickAsWritten, CustomerForm.PreviewSubmitsAsWritten | CustomerForm.HandleClick |
| src/components/CustomerForm.jsx:356 | The remove button of a document has no `type` either. The list rows are keyed by index (line 352), so after any document but the last is removed the clicked button is still in the form, and its default action submits what is left. | On the documents step of a new application with two attached documents, remove the first: the remaining document is uploaded and the application is stored as SUBMITTED. | The remove button only removes (`type="button"`). | not executed; relies on HTML's default button type and on React committing the removal before the browser's default action | CustomerForm.HandleClickAsWritten, CustomerForm.RemoveSubmitsAsWritten | CustomerForm.HandleClick |

=== FILE: customer_form.dfy ===
/** The ten-step application wizard (`src/components/CustomerForm.jsx`): its
    state is the current step, the form, the read-only flag and whether the
    camera overlay is open. Every handler is a function from wizard to
    wizard. When a list in the form is missing (or is not a list), removing
    a document or editing a row throws before any update is queued, so the
    wizard is unchanged. Adding a file, a captured frame or a row, and
    removing a row, throw inside the updater given to `setFormData` instead;
    React runs that updater while rendering, so the error unmounts the
    application. The model does not represent that crash and leaves the
    wizard unchanged there too. The clock, the camera, `FileReader` and the
    date parser are parameters. */
module CustomerForm {
  import opened Outcomes
  import opened JsText
  import opened PolicyData
  import opened Storage
  import opened Reconcile

  // ---------------------------------------------------------------------------
  // Steps and the blank form
  // ---------------------------------------------------------------------------

  /** The step titles; step `k` is titled `Steps[k - 1]`. */
  const Steps: seq<string> := ["Personal", "Edu & Occ", "Address", "Family Hist", "Nominee",
                               "Prev Policy", "Bank", "Medical", "Documents", "Summary"]
  const FirstStep := 1
  const DocumentsStep := 9
  const LastStep := 10

  predicate InRange(step: int) {
    FirstStep <= step <= LastStep
  }

  /** The form a new application starts from: no id, the three lists empty,
      every other field text, with the defaults the first screens preselect. */
  function BlankForm(): (f: Form)
    ensures IdKey !in f
    ensures DocumentsKey in f && f[DocumentsKey] == Docs([])
    ensures FamilyKey in f && f[FamilyKey] == Rows([])
    ensures PoliciesKey in f && f[PoliciesKey] == Rows([])
    ensures forall k :: k in f && k != DocumentsKey && k != FamilyKey && k != PoliciesKey ==> f[k].Str?
    ensures NomineeDobKey in f && f[NomineeDobKey] == Str("")
  {
    map[
      "firstName" := Str(""), "lastName" := Str(""), "dob" := Str(""),
      "gender" := Str("Male"), "maritalStatus" := Str("Single"),
      "education" := Str(""), "occupation" := Str(""), "annualIncome" := Str(""),
      "phone" := Str(""), "email" := Str(""), "addressLine1" := Str(""), "addressLine2" := Str(""),
      "city" := Str(""), "state" := Str(""), "pincode" := Str(""),
      FamilyKey := Rows([]),
      "nomineeName" := Str(""), "nomineeRelation" := Str(""), NomineeDobKey := Str(""),
      "nomineeShare" := Str("100"),
      "appointeeName" := Str(""), "appointeeRelation" := Str(""),
      PoliciesKey := Rows([]),
      "accountNumber" := Str(""), "ifscCode" := Str(""), "bankName" := Str(""),
      "accountType" := Str("Savings"),
      "height" := Str(""), "weight" := Str(""), "identificationMark" := Str(""),
      "historyOfIllness" := Str("No"), "detailsOfIllness" := Str(""),
      DocumentsKey := Docs([])
    ]
  }

  // ---------------------------------------------------------------------------
  // The lists inside the form
  // ---------------------------------------------------------------------------

  /** The two tables of rows the applicant edits in place. */
  datatype RowList = Family | PastPolicies {
    function Key(): string {
      match this
      case Family => FamilyKey
      case PastPolicies => PoliciesKey
    }

    /** The row a new "Add" button press appends. */
    function Defaults(): Entry {
      match this
      case Family => map["member" := "Father", "status" := "Living", "age" := "", "cause" := ""]
      case PastPolicies => map["policyNo" := "", "tableTerm" := "", "sumAssured" := "", "commencementDate" := ""]
    }
  }

  function DocsOf(f: Form): Option<seq<Document>> {
    if DocumentsKey in f && f[DocumentsKey].Docs? then Some(f[DocumentsKey].docs) else None
  }

  function RowsOf(f: Form, list: RowList): Option<seq<Entry>> {
    if list.Key() in f && f[list.Key()].Rows? then Some(f[list.Key()].rows) else None
  }

  /** The keys whose values the handlers treat as lists. */
  predicate ListKey(k: string) {
    k == DocumentsKey || k == FamilyKey || k == PoliciesKey
  }

  /** All three lists are present and are lists. */
  predicate WellShaped(f: Form) {
    DocsOf(f).Some? && RowsOf(f, Family).Some? && RowsOf(f, PastPolicies).Some?
  }

  /** `list.filter((_, k) => k !== i)`: drops the element at index `i`, if
      there is one. */
  function DropIndex<T>(s: seq<T>, i: int): (r: seq<T>)
    ensures 0 <= i < |s| ==> r == s[..i] + s[i + 1..]
    ensures !(0 <= i < |s|) ==> r == s
    decreases |s|
  {
    if |s| == 0 then []
    else
      var init := s[..|s| - 1];
      var kept := DropIndex(init, i);
      if i == |s| - 1 then kept
      else
        assert 0 <= i < |init| ==> init[..i] + init[i + 1..] + [s[|s| - 1]] == s[..i] + s[i + 1..];
        kept + [s[|s| - 1]]
  }

  // ---------------------------------------------------------------------------
  // The wizard and its handlers
  // ---------------------------------------------------------------------------

  datatype Wizard = Wizard(step: int, form: Form, readOnly: bool, scanning: bool)

  /** Mounting: `initialData || blank form`, the given first step, camera off. */
  function Mount(initialData: Option<Form>, initialStep: int, readOnly: bool): (w: Wizard)
    ensures w.step == initialStep && w.readOnly == readOnly && !w.scanning
    ensures initialData.Some? ==> w.form == initialData.value
    ensures initialData.None? ==> WellShaped(w.form) && IdKey !in w.form && DocsOf(w.form) == Some([])
    ensures initialData.None? ==> RowsOf(w.form, Family) == Some([]) && RowsOf(w.form, PastPolicies) == Some([])
  {
    Wizard(initialStep, initialData.GetOr(BlankForm()), readOnly, false)
  }

  /** A new application is inserted on its first save, not matched to a row. */
  lemma BlankFormIsNew(t: Table, isDraft: bool, env: SaveEnv)
    requires env.link.Online? && !IdTaken(t, env.freshId)
    ensures var w := Mount(None, FirstStep, false);
            SavePolicy(t, w.form, isDraft, env).Success?
            && SavePolicy(t, w.form, isDraft, env).value.0.records
               == t.records + [Record(env.freshId, StatusOf(isDraft), FormPayload(w.form), env.now)]
  {
    assert !UsesUpdatePath(BlankForm());
  }

  /** "Next": one step forward, never past the summary. No read-only guard. */
  function NextStep(w: Wizard): (r: Wizard)
    ensures r.form == w.form && r.readOnly == w.readOnly && r.scanning == w.scanning
    ensures w.step < LastStep ==> r.step == w.step + 1
    ensures w.step >= LastStep ==> r == w
    ensures InRange(w.step) ==> InRange(r.step)
  {
    if w.step < LastStep then w.(step := w.step + 1) else w
  }

  /** "Back": one step back, never before the first. No read-only guard. */
  function PrevStep(w: Wizard): (r: Wizard)
    ensures r.form == w.form && r.readOnly == w.readOnly && r.scanning == w.scanning
    ensures w.step > FirstStep ==> r.step == w.step - 1
    ensures w.step <= FirstStep ==> r == w
    ensures InRange(w.step) ==> InRange(r.step)
  {
    if w.step > FirstStep then w.(step := w.step - 1) else w
  }

  /** Back undoes Next and Next undoes Back, except at the two ends. */
  lemma NextPrevInverse(w: Wizard)
    ensures FirstStep <= w.step < LastStep ==> PrevStep(NextStep(w)) == w
    ensures FirstStep < w.step <= LastStep ==> NextStep(PrevStep(w)) == w
  {
  }

  /** The summary's "Edit" button of section `section` (shown only on the
      summary, outside read-only mode, for sections 1 to 9). */
  function JumpTo(w: Wizard, section: int): (r: Wizard)
    ensures (w.step == LastStep && !w.readOnly && FirstStep <= section < LastStep) ==> r == w.(step := section)
    ensures !(w.step == LastStep && !w.readOnly && FirstStep <= section < LastStep) ==> r == w
    ensures InRange(w.step) ==> InRange(r.step)
  {
    if w.step == LastStep && !w.readOnly && FirstStep <= section < LastStep then w.(step := section) else w
  }

  /** `handleChange`: the named field now holds the typed text; every other
      field keeps its value. Nothing happens in read-only mode. */
  function HandleChange(w: Wizard, name: string, value: string): (r: Wizard)
    ensures w.readOnly ==> r == w
    ensures !w.readOnly ==> r.form.Keys == w.form.Keys + {name} && r.form[name] == Str(value)
    ensures forall k :: k in w.form && k != name ==> k in r.form && r.form[k] == w.form[k]
    ensures r.step == w.step && r.readOnly == w.readOnly && r.scanning == w.scanning
    ensures WellShaped(w.form) && !ListKey(name) ==> WellShaped(r.form)
  {
    if w.readOnly then w else w.(form := w.form[name := Str(value)])
  }

  // ---------------------------------------------------------------------------
  // Documents
  // ---------------------------------------------------------------------------

  /** A file chosen in the file dialog: its handle, its size in bytes and the
      result of reading it as a data URL (`None` when the read failed). */
  datatype PickedFile = PickedFile(handle: FileHandle, bytes: nat, read: Option<string>)

  /** `(size / 1024).toFixed(1)` as a count of tenths of a kilobyte: the
      nearest one, ties going up. */
  function Tenths(bytes: nat): (n: nat)
    ensures bytes * 10 - 512 < n * 1024 <= bytes * 10 + 512
  {
    (bytes * 10 + 512) / 1024
  }

  /** The size label of a chosen file: whole kilobytes, a point, one decimal,
      then `" KB"`. */
  function SizeLabel(bytes: nat): (lbl: string)
    ensures EndsWith(lbl, " KB") && |lbl| >= 6 && lbl[|lbl| - 5] == '.'
  {
    var n := Tenths(bytes);
    DecimalString(n / 10) + "." + [DigitChar(n % 10)] + " KB"
  }

  /** The label reads back as the rounded size: its whole part and its one
      decimal give the tenths of a kilobyte. */
  lemma SizeLabelReadsBack(bytes: nat)
    ensures var lbl := SizeLabel(bytes);
            && |lbl| >= 6
            && lbl[|lbl| - 3..] == " KB" && lbl[|lbl| - 5] == '.'
            && AllDigits(lbl[..|lbl| - 5]) && IsDigit(lbl[|lbl| - 4])
            && ParseDecimal(lbl[..|lbl| - 5]) * 10 + DigitValue(lbl[|lbl| - 4]) == Tenths(bytes)
  {
    var n := Tenths(bytes);
    var whole := DecimalString(n / 10);
    var lbl := SizeLabel(bytes);
    assert lbl[..|lbl| - 5] == whole;
    ParseDecimalString(n / 10);
  }

  /** The document entry made for a file that was read. */
  function DocFor(p: PickedFile): (d: Document)
    requires p.read.Some?
    ensures NeedsUpload(d) && d.url.None? && SourceBlob(d) == FileBlob(p.handle)
    ensures d.name == p.handle.name && d.mime == p.handle.mime && d.data == p.read
    ensures d.size == SizeLabel(p.bytes)
  {
    Document(p.handle.name, SizeLabel(p.bytes), p.handle.mime, p.read, Live(p.handle), None)
  }

  /** The number of chosen files whose read succeeded. */
  function ReadableCount(picked: seq<PickedFile>): nat
    decreases |picked|
  {
    if |picked| == 0 then 0
    else ReadableCount(picked[..|picked| - 1]) + (if picked[|picked| - 1].read.Some? then 1 else 0)
  }

  /** The chosen files whose read succeeded, in order: readable file `i`
      comes after exactly the readable files before it. */
  function Readable(picked: seq<PickedFile>): (ok: seq<PickedFile>)
    ensures |ok| == ReadableCount(picked) <= |picked|
    ensures (forall i :: 0 <= i < |picked| ==> picked[i].read.Some?) ==> |ok| == |picked|
    ensures forall p :: p in ok ==> p in picked && p.read.Some?
    ensures forall i :: 0 <= i < |picked| && picked[i].read.Some? ==>
              ReadableCount(picked[..i]) < |ok| && ok[ReadableCount(picked[..i])] == picked[i]
    decreases |picked|
  {
    if |picked| == 0 then []
    else
      var init := picked[..|picked| - 1];
      var last := picked[|picked| - 1];
      var rest := Readable(init);
      var tail := if last.read.Some? then [last] else [];
      assert picked[..|init|] == init;
      assert forall i :: 0 <= i < |init| ==> init[i] == picked[i];
      forall i | 0 <= i < |picked| && picked[i].read.Some?
        ensures ReadableCount(picked[..i]) < |rest + tail|
        ensures (rest + tail)[ReadableCount(picked[..i])] == picked[i]
      {
        if i < |init| {
          assert picked[..i] == init[..i];
        }
      }
      rest + tail
  }

  /** The entries made for a batch of chosen files: one per file that was
      read, in the files' order; a file whose read fails is skipped. */
  function NewDocs(picked: seq<PickedFile>): (docs: seq<Document>)
    ensures |docs| == ReadableCount(picked) <= |picked|
    ensures (forall i :: 0 <= i < |picked| ==> picked[i].read.Some?) ==> |docs| == |picked|
    ensures forall i :: 0 <= i < |picked| && picked[i].read.Some? ==>
              ReadableCount(picked[..i]) < |docs| && docs[ReadableCount(picked[..i])] == DocFor(picked[i])
    ensures forall i :: 0 <= i < |picked| && picked[i].read.Some? ==> DocFor(picked[i]) in docs
    ensures forall d :: d in docs ==> exists i :: 0 <= i < |picked| && picked[i].read.Some? && d == DocFor(picked[i])
    ensures forall d :: d in docs ==> NeedsUpload(d) && d.url.None?
  {
    var ok := Readable(picked);
    var docs := seq(|ok|, k requires 0 <= k < |ok| => DocFor(ok[k]));
    forall d | d in docs
      ensures exists i :: 0 <= i < |picked| && picked[i].read.Some? && d == DocFor(picked[i])
    {
      var k :| 0 <= k < |ok| && d == docs[k];
      assert ok[k] in picked;
    }
    docs
  }

  /** `handleFileChange`: the entries for the files read are appended after
      the existing documents; nothing else changes. */
  function HandleFileChange(w: Wizard, picked: seq<PickedFile>): (r: Wizard)
    ensures w.readOnly || DocsOf(w.form).None? ==> r == w
    ensures !w.readOnly && DocsOf(w.form).Some? ==> DocsOf(r.form) == Some(DocsOf(w.form).value + NewDocs(picked))
    ensures r.form.Keys == w.form.Keys
    ensures forall k :: k in w.form && k != DocumentsKey ==> r.form[k] == w.form[k]
    ensures r.step == w.step && r.readOnly == w.readOnly && r.scanning == w.scanning
    ensures WellShaped(w.form) ==> WellShaped(r.form)
  {
    if w.readOnly then w
    else match DocsOf(w.form)
      case None => w
      case Some(docs) => w.(form := w.form[DocumentsKey := Docs(docs + NewDocs(picked))])
  }

  /** `removeDocument(i)`: the document at index `i` is gone, the others keep
      their order; an index outside the list changes nothing. */
  function RemoveDocument(w: Wizard, i: int): (r: Wizard)
    ensures w.readOnly || DocsOf(w.form).None? ==> r == w
    ensures !w.readOnly && DocsOf(w.form).Some? ==> DocsOf(r.form) == Some(DropIndex(DocsOf(w.form).value, i))
    ensures r.form.Keys == w.form.Keys
    ensures forall k :: k in w.form && k != DocumentsKey ==> r.form[k] == w.form[k]
    ensures r.step == w.step && r.readOnly == w.readOnly && r.scanning == w.scanning
    ensures WellShaped(w.form) ==> WellShaped(r.form)
  {
    if w.readOnly then w
    else match DocsOf(w.form)
      case None => w
      case Some(docs) => w.(form := w.form[DocumentsKey := Docs(DropIndex(docs, i))])
  }

  /** Choosing one readable file and then removing the last document gives the
      wizard back as it was. */
  lemma AddThenRemoveFile(w: Wizard, p: PickedFile)
    requires !w.readOnly && DocsOf(w.form).Some? && p.read.Some?
    ensures RemoveDocument(HandleFileChange(w, [p]), |DocsOf(w.form).value|) == w
  {
    var docs := DocsOf(w.form).value;
    assert [p][..0] == [];
    assert NewDocs([p]) == [DocFor(p)];
    var w1 := HandleFileChange(w, [p]);
    assert DropIndex(docs + [DocFor(p)], |docs|) == docs;
    assert w.form[DocumentsKey := Docs(docs)] == w.form;
  }

  /** The camera overlay opens when camera access is granted; read-only mode
      never opens it. */
  function StartCamera(w: Wizard, granted: bool): (r: Wizard)
    ensures w.readOnly ==> r == w
    ensures !w.readOnly ==> r == w.(scanning := granted)
  {
    if w.readOnly then w else w.(scanning := granted)
  }

  /** `stopCamera`: the overlay closes; nothing else changes. */
  function StopCamera(w: Wizard): (r: Wizard)
    ensures !r.scanning && r == w.(scanning := false)
  {
    w.(scanning := false)
  }

  /** The entry a camera capture at time `ts` makes. */
  function ScannedDoc(ts: nat, dataUrl: string): (d: Document)
    ensures StartsWith(d.name, "scanned_") && EndsWith(d.name, ".jpg")
    ensures d.mime == "image/jpeg" && d.data == Some(dataUrl) && d.url.None?
    ensures SerializeDocument(d) == d
  {
    Document("scanned_" + DecimalString(ts) + ".jpg", "Scanned", "image/jpeg", Some(dataUrl), NoFile, None)
  }

  /** `captureImage`: with the overlay open on the documents step, the frame
      is appended as a JPEG entry and the overlay closes; otherwise nothing
      happens (no video element is mounted). */
  function CaptureImage(w: Wizard, ts: nat, dataUrl: string): (r: Wizard)
    ensures !(w.scanning && w.step == DocumentsStep) || DocsOf(w.form).None? ==> r == w
    ensures w.scanning && w.step == DocumentsStep && DocsOf(w.form).Some? ==>
              !r.scanning && DocsOf(r.form) == Some(DocsOf(w.form).value + [ScannedDoc(ts, dataUrl)])
    ensures r.form.Keys == w.form.Keys
    ensures forall k :: k in w.form && k != DocumentsKey ==> r.form[k] == w.form[k]
    ensures r.step == w.step && r.readOnly == w.readOnly
    ensures WellShaped(w.form) ==> WellShaped(r.form)
  {
    if !(w.scanning && w.step == DocumentsStep) then w
    else match DocsOf(w.form)
      case None => w
      case Some(docs) => StopCamera(w.(form := w.form[DocumentsKey := Docs(docs + [ScannedDoc(ts, dataUrl)])]))
  }

  /** A captured frame is pending until submit, where it is uploaded from its
      data URL under its generated name. */
  lemma CapturedFrameIsUploaded(ts: nat, dataUrl: string, folder: string, ts': nat)
    requires StartsWith(dataUrl, "data:")
    ensures var d := ScannedDoc(ts, dataUrl);
            && NeedsUpload(d)
            && DocRequest(d, folder, ts').blob == DataUrlBlob(dataUrl, d.name, "image/jpeg")
  {
    assert HasDataUrl(ScannedDoc(ts, dataUrl));
  }

  // ---------------------------------------------------------------------------
  // Family history and previous policies
  // ---------------------------------------------------------------------------

  /** "Add Member" / "Add Policy": appends the default row. */
  function AddRow(w: Wizard, list: RowList): (r: Wizard)
    ensures w.readOnly || RowsOf(w.form, list).None? ==> r == w
    ensures !w.readOnly && RowsOf(w.form, list).Some? ==>
              RowsOf(r.form, list) == Some(RowsOf(w.form, list).value + [list.Defaults()])
    ensures r.form.Keys == w.form.Keys
    ensures forall k :: k in w.form && k != list.Key() ==> r.form[k] == w.form[k]
    ensures r.step == w.step && r.readOnly == w.readOnly && r.scanning == w.scanning
    ensures WellShaped(w.form) ==> WellShaped(r.form)
  {
    if w.readOnly then w
    else match RowsOf(w.form, list)
      case None => w
      case Some(rows) => w.(form := w.form[list.Key() := Rows(rows + [list.Defaults()])])
  }

  /** Editing cell `field` of row `i`: that cell holds the new text and every
      other cell and row is kept. A row index outside the list makes the
      handler throw before any update, so nothing changes. */
  function UpdateRow(w: Wizard, list: RowList, i: int, field: string, value: string): (r: Wizard)
    ensures w.readOnly || RowsOf(w.form, list).None? || !(0 <= i < |RowsOf(w.form, list).value|) ==> r == w
    ensures !w.readOnly && RowsOf(w.form, list).Some? && 0 <= i < |RowsOf(w.form, list).value| ==>
              var rows := RowsOf(w.form, list).value;
              && RowsOf(r.form, list).Some?
              && var rows' := RowsOf(r.form, list).value;
                 && |rows'| == |rows|
                 && rows'[i].Keys == rows[i].Keys + {field} && rows'[i][field] == value
                 && (forall f :: f in rows[i] && f != field ==> rows'[i][f] == rows[i][f])
                 && (forall j :: 0 <= j < |rows| && j != i ==> rows'[j] == rows[j])
    ensures r.form.Keys == w.form.Keys
    ensures forall k :: k in w.form && k != list.Key() ==> r.form[k] == w.form[k]
    ensures r.step == w.step && r.readOnly == w.readOnly && r.scanning == w.scanning
    ensures WellShaped(w.form) ==> WellShaped(r.form)
  {
    if w.readOnly then w
    else match RowsOf(w.form, list)
      case None => w
      case Some(rows) =>
        if 0 <= i < |rows| then w.(form := w.form[list.Key() := Rows(rows[i := rows[i][field := value]])])
        else w
  }

  /** The trash button of row `i`: that row is gone, the others keep their
      order. */
  function RemoveRow(w: Wizard, list: RowList, i: int): (r: Wizard)
    ensures w.readOnly || RowsOf(w.form, list).None? ==> r == w
    ensures !w.readOnly && RowsOf(w.form, list).Some? ==>
              RowsOf(r.form, list) == Some(DropIndex(RowsOf(w.form, list).value, i))
    ensures r.form.Keys == w.form.Keys
    ensures forall k :: k in w.form && k != list.Key() ==> r.form[k] == w.form[k]
    ensures r.step == w.step && r.readOnly == w.readOnly && r.scanning == w.scanning
    ensures WellShaped(w.form) ==> WellShaped(r.form)
  {
    if w.readOnly then w
    else match RowsOf(w.form, list)
      case None => w
      case Some(rows) => w.(form := w.form[list.Key() := Rows(DropIndex(rows, i))])
  }

  /** Adding a row and removing it again gives the wizard back as it was. */
  lemma AddThenRemoveRow(w: Wizard, list: RowList)
    requires !w.readOnly && RowsOf(w.form, list).Some?
    ensures RemoveRow(AddRow(w, list), list, |RowsOf(w.form, list).value|) == w
  {
    var rows := RowsOf(w.form, list).value;
    assert DropIndex(rows + [list.Defaults()], |rows|) == rows;
    assert w.form[list.Key() := Rows(rows)] == w.form;
  }

  // ---------------------------------------------------------------------------
  // Edit sequences
  // ---------------------------------------------------------------------------

  /** Everything the applicant can do to the wizard short of saving it. */
  datatype Edit =
    | Change(name: string, value: string)
    | AddFiles(picked: seq<PickedFile>)
    | RemoveDoc(index: int)
    | OpenCamera(granted: bool)
    | CloseCamera
    | Capture(ts: nat, dataUrl: string)
    | AddEntry(list: RowList)
    | UpdateEntry(list: RowList, row: int, field: string, text: string)
    | RemoveEntry(list: RowList, row: int)
    | Next
    | Back
    | EditSection(section: int)

  function Apply(w: Wizard, e: Edit): Wizard {
    match e
    case Change(name, value) => HandleChange(w, name, value)
    case AddFiles(picked) => HandleFileChange(w, picked)
    case RemoveDoc(i) => RemoveDocument(w, i)
    case OpenCamera(granted) => StartCamera(w, granted)
    case CloseCamera => StopCamera(w)
    case Capture(ts, dataUrl) => CaptureImage(w, ts, dataUrl)
    case AddEntry(list) => AddRow(w, list)
    case UpdateEntry(list, i, f, v) => UpdateRow(w, list, i, f, v)
    case RemoveEntry(list, i) => RemoveRow(w, list, i)
    case Next => NextStep(w)
    case Back => PrevStep(w)
    case EditSection(s) => JumpTo(w, s)
  }

  function Replay(w: Wizard, es: seq<Edit>): (r: Wizard)
    ensures r.readOnly == w.readOnly
    decreases |es|
  {
    if |es| == 0 then w else Replay(Apply(w, es[0]), es[1..])
  }

  /** In read-only mode no sequence of edits changes the form, and the camera
      stays closed. */
  lemma {:induction false} ReadOnlyFreezesForm(w: Wizard, es: seq<Edit>)
    requires w.readOnly && !w.scanning
    ensures Replay(w, es).form == w.form && !Replay(w, es).scanning
    decreases |es|
  {
    if |es| > 0 {
      var w1 := Apply(w, es[0]);
      assert w1.form == w.form && !w1.scanning && w1.readOnly;
      ReadOnlyFreezesForm(w1, es[1..]);
    }
  }

  /** Every edit sequence keeps the step between 1 and 10, and keeps the three
      lists in place as long as no text input is named after one of them. */
  lemma {:induction false} EditsKeepInvariants(w: Wizard, es: seq<Edit>)
    requires InRange(w.step) && WellShaped(w.form)
    requires forall k :: 0 <= k < |es| && es[k].Change? ==> !ListKey(es[k].name)
    ensures InRange(Replay(w, es).step) && WellShaped(Replay(w, es).form)
    decreases |es|
  {
    if |es| > 0 {
      var w1 := Apply(w, es[0]);
      assert InRange(w1.step) && WellShaped(w1.form);
      assert forall k :: 0 <= k < |es[1..]| ==> es[1..][k] == es[k + 1];
      EditsKeepInvariants(w1, es[1..]);
    }
  }

  // ---------------------------------------------------------------------------
  // Age of the nominee
  // ---------------------------------------------------------------------------

  /** `getAge`: a whole number of years, or NaN. */
  datatype Age = Years(n: nat) | NotANumber

  const MinorAge := 18

  /** JavaScript truthiness of a form field (absent reads as `undefined`). */
  predicate Truthy(v: Option<Value>) {
    match v
    case None => false
    case Some(Null) => false
    case Some(Str(s)) => s != ""
    case Some(Num(n)) => n != 0
    case Some(Docs(_)) => true
    case Some(Rows(_)) => true
  }

  /** `getAge(dob)`. `elapsed` is the UTC year of `now - dob`, minus 1970,
      as the clock and the date parser give it, or `None` when the date does
      not parse. A falsy date is age 0. */
  function GetAge(dob: Option<Value>, elapsed: Option<int>): (a: Age)
    ensures !Truthy(dob) ==> a == Years(0)
    ensures Truthy(dob) ==> (a.NotANumber? <==> elapsed.None?)
    ensures Truthy(dob) && elapsed.Some? ==> a.Years? && (a.n == elapsed.value || a.n == -elapsed.value)
  {
    if !Truthy(dob) then Years(0)
    else match elapsed
      case None => NotANumber
      case Some(y) => Years(if y < 0 then -y else y)
  }

  /** `getAge(nomineeDob) < 18`; NaN compares false. */
  predicate IsNomineeMinor(form: Form, elapsed: Option<int>): (minor: bool)
    ensures !Truthy(Field(form, NomineeDobKey)) ==> minor
    ensures Truthy(Field(form, NomineeDobKey)) && elapsed.None? ==> !minor
  {
    match GetAge(Field(form, NomineeDobKey), elapsed)
    case Years(n) => n < MinorAge
    case NotANumber => false
  }

  /** The appointee fields show exactly when the nominee's date is blank, or
      parses to fewer than 18 years either side of now. */
  lemma MinorWhen(form: Form, elapsed: Option<int>)
    ensures IsNomineeMinor(form, elapsed) <==>
              || !Truthy(Field(form, NomineeDobKey))
              || (elapsed.Some? && -MinorAge < elapsed.value < MinorAge)
  {
  }

  // ---------------------------------------------------------------------------
  // Saving
  // ---------------------------------------------------------------------------

  /** `handleSaveDraft`: the form as it stands, saved as a draft, with no
      uploads. */
  function SaveDraft(w: Wizard, t: Table, env: SaveEnv): (r: Result<Table, StoreError>)
    ensures r.Success? <==> SavePolicy(t, w.form, true, env).Success?
    ensures r.Failure? ==> r.error == SavePolicy(t, w.form, true, env).error
    ensures r.Success? ==> r.value == SavePolicy(t, w.form, true, env).value.0
    ensures r.Success? ==> |r.value.records| >= |t.records|
  {
    match SavePolicy(t, w.form, true, env)
    case Success((t', _)) => Success(t')
    case Failure(e) => Failure(e)
  }

  /** A saved draft is listed among the drafts, holding the form as stored. */
  lemma DraftIsListed(w: Wizard, t: Table, env: SaveEnv)
    requires SaveDraft(w, t, env).Success?
    ensures exists x :: x in GetPolicies(SaveDraft(w, t, env).value, Draft, Online)
                        && x[StatusKey] == Str("DRAFT") && ReadBackOf(x, w.form)
  {
    SaveThenList(t, w.form, true, env);
  }

  /** The environment of a submission: the store, the upload time and the
      bucket. */
  datatype SubmitEnv = SubmitEnv(save: SaveEnv, ts: nat, up: Uploader)

  datatype SubmitError = NoDocumentList | Store(cause: StoreError)

  /** `handleSubmit` once the browser lets the form submit: upload pending
      documents, then save the form with the updated list as submitted. */
  function SubmitForm(form: Form, t: Table, env: SubmitEnv): (r: Result<Table, SubmitError>)
    ensures DocsOf(form).None? ==> r == Failure(NoDocumentList)
    ensures r.Success? ==> DocsOf(form).Some? && ReconcileAll(DocsOf(form).value, FolderName(form), env.ts, env.up).Success?
    ensures DocsOf(form).Some? && ReconcileAll(DocsOf(form).value, FolderName(form), env.ts, env.up).Failure? ==>
              r == Failure(Store(ReconcileAll(DocsOf(form).value, FolderName(form), env.ts, env.up).error))
    ensures r.Success? ==> |r.value.records| >= |t.records|
  {
    match DocsOf(form)
    case None => Failure(NoDocumentList)
    case Some(docs) =>
      match ReconcileAll(docs, FolderName(form), env.ts, env.up)
      case Failure(e) => Failure(Store(e))
      case Success(docs') =>
        match SavePolicy(t, form[DocumentsKey := Docs(docs')], false, env.save)
        case Success((t', _)) => Success(t')
        case Failure(e) => Failure(Store(e))
  }

  /** The list a successful pass returns holds no pending document and no
      live file, and keeps each document's name. */
  lemma SettledDocuments(docs: seq<Document>, folder: string, ts: nat, up: Uploader)
    requires ReconcileAll(docs, folder, ts, up).Success?
    ensures var out := ReconcileAll(docs, folder, ts, up).value;
            && |out| == |docs|
            && (forall i :: 0 <= i < |out| ==> !NeedsUpload(out[i]) && out[i].name == docs[i].name)
            && SerializeValue(Docs(out)) == Docs(out)
  {
    var out := ReconcileAll(docs, folder, ts, up).value;
    assert !HoldsLiveFile(Docs(out));
    SerializeValueFacts(Docs(out));
  }

  /** The form a successful submission saves: the form with its document
      list replaced by the result of the pass. */
  function SubmittedForm(form: Form, env: SubmitEnv): Form
    requires DocsOf(form).Some? && ReconcileAll(DocsOf(form).value, FolderName(form), env.ts, env.up).Success?
  {
    form[DocumentsKey := Docs(ReconcileAll(DocsOf(form).value, FolderName(form), env.ts, env.up).value)]
  }

  /** A successful submission is the save of the submitted form. */
  lemma SubmitIsSave(form: Form, t: Table, env: SubmitEnv)
    requires SubmitForm(form, t, env).Success?
    ensures SavePolicy(t, SubmittedForm(form, env), false, env.save).Success?
    ensures SubmitForm(form, t, env).value == SavePolicy(t, SubmittedForm(form, env), false, env.save).value.0
  {
  }

  /** The row read back after a submission holds the settled documents and
      every other field of the form as JSON stored it. */
  lemma SubmittedReadBack(x: Form, form: Form, env: SubmitEnv)
    requires DocsOf(form).Some? && ReconcileAll(DocsOf(form).value, FolderName(form), env.ts, env.up).Success?
    requires ReadBackOf(x, SubmittedForm(form, env))
    ensures var out := ReconcileAll(DocsOf(form).value, FolderName(form), env.ts, env.up).value;
            && DocumentsKey in x && x[DocumentsKey] == Docs(out)
            && (forall k :: k in x && k !in MetadataKeys && k != DocumentsKey ==> k in form && x[k] == SerializeValue(form[k]))
  {
    SettledDocuments(DocsOf(form).value, FolderName(form), env.ts, env.up);
    assert DocumentsKey in SubmittedForm(form, env).Keys - MetadataKeys;
  }

  /** `x` is a read-back of a submission of `form`: status SUBMITTED, every
      document of the form in order and under the same name with none still
      pending, and every other field as JSON stored it. */
  predicate SubmittedRowOf(x: Form, form: Form)
    requires DocsOf(form).Some?
  {
    var docs := DocsOf(form).value;
    && StatusKey in x && x[StatusKey] == Str("SUBMITTED")
    && DocumentsKey in x && x[DocumentsKey].Docs?
    && |x[DocumentsKey].docs| == |docs|
    && (forall i :: 0 <= i < |docs| ==> !NeedsUpload(x[DocumentsKey].docs[i]) && x[DocumentsKey].docs[i].name == docs[i].name)
    && (forall k :: k in x && k !in MetadataKeys && k != DocumentsKey ==> k in form && x[k] == SerializeValue(form[k]))
  }

  /** What a successful submission stores: the submitted list holds a row
      that reads back as the form, all documents settled. */
  lemma SubmittedRecordIsComplete(form: Form, t: Table, env: SubmitEnv)
    requires SubmitForm(form, t, env).Success?
    ensures DocsOf(form).Some?
    ensures exists x :: x in GetPolicies(SubmitForm(form, t, env).value, Submitted, Online) && SubmittedRowOf(x, form)
  {
    var docs := DocsOf(form).value;
    var out := ReconcileAll(docs, FolderName(form), env.ts, env.up).value;
    var t' := SubmitForm(form, t, env).value;
    SettledDocuments(docs, FolderName(form), env.ts, env.up);
    SubmitIsSave(form, t, env);
    SaveThenList(t, SubmittedForm(form, env), false, env.save);
    var x: Form :| x in GetPolicies(t', Submitted, Online)
                   && x[StatusKey] == Str(StatusName(Submitted)) && ReadBackOf(x, SubmittedForm(form, env));
    SubmittedReadBack(x, form, env);
    assert SubmittedRowOf(x, form);
  }

  /** One refused upload fails the submission, so nothing is stored. */
  lemma RefusedUploadStopsSubmit(form: Form, t: Table, env: SubmitEnv, i: nat)
    requires DocsOf(form).Some? && i < |DocsOf(form).value|
    requires NeedsUpload(DocsOf(form).value[i])
    requires env.up(DocRequest(DocsOf(form).value[i], FolderName(form), env.ts)).Failure?
    ensures SubmitForm(form, t, env).Failure?
  {
    OneFailureFailsAll(DocsOf(form).value, FolderName(form), env.ts, env.up, i);
  }

  // ---------------------------------------------------------------------------
  // Buttons inside the form element
  // ---------------------------------------------------------------------------

  /** Clicks on buttons that sit inside the wizard's `<form>`: the submit
      button on the summary (with the declaration ticked or not), and the
      preview and remove buttons of document `i` on the documents step. */
  datatype Click = SubmitButton(declared: bool) | PreviewButton(index: int) | RemoveButton(index: int)

  /** The button is on screen. */
  predicate Shown(w: Wizard, c: Click) {
    match c
    case SubmitButton(_) => w.step == LastStep && !w.readOnly
    case PreviewButton(i) =>
      && w.step == DocumentsStep && DocsOf(w.form).Some?
      && 0 <= i < |DocsOf(w.form).value| && DocsOf(w.form).value[i].data.Some?
      && DocsOf(w.form).value[i].data.value != ""
    case RemoveButton(i) =>
      && w.step == DocumentsStep && !w.readOnly && DocsOf(w.form).Some?
      && 0 <= i < |DocsOf(w.form).value|
  }

  /** What a click does: the wizard afterwards (the preview overlay is not
      modelled, so the preview button leaves it as it is) and the submission
      it starts, if any. */
  datatype Reaction = Reaction(wizard: Wizard, submission: Option<Result<Table, SubmitError>>)

  /** The clicks as the markup writes them: the preview and remove buttons
      have no `type`, so HTML makes them submit buttons of the enclosing form,
      and the documents step has no required field to stop the submission.
      The remove button's own update is committed before the browser's
      default action; the list rows are keyed by index, so the clicked button
      stays in the form unless it belonged to the last document, and the form
      then submitted no longer holds the removed document. */
  function HandleClickAsWritten(w: Wizard, t: Table, c: Click, env: SubmitEnv): (r: Reaction)
    ensures !(Shown(w, c) && c.RemoveButton?) ==> r.wizard == w
    ensures Shown(w, c) && c.RemoveButton? ==> r.wizard == RemoveDocument(w, c.index)
    ensures !Shown(w, c) ==> r.submission.None?
    ensures Shown(w, c) && c.SubmitButton? ==> (r.submission.Some? <==> c.declared)
    ensures Shown(w, c) && c.PreviewButton? ==> r.submission.Some?
    ensures Shown(w, c) && c.RemoveButton? ==> (r.submission.Some? <==> c.index < |DocsOf(w.form).value| - 1)
    ensures r.submission.Some? ==> r.submission.value == SubmitForm(r.wizard.form, t, env)
  {
    if !Shown(w, c) then Reaction(w, None)
    else match c
      case SubmitButton(declared) => Reaction(w, if declared then Some(SubmitForm(w.form, t, env)) else None)
      case PreviewButton(_) => Reaction(w, Some(SubmitForm(w.form, t, env)))
      case RemoveButton(i) =>
        var w' := RemoveDocument(w, i);
        var stillMounted := i < |DocsOf(w.form).value| - 1;
        Reaction(w', if stillMounted then Some(SubmitForm(w'.form, t, env)) else None)
  }

  /** A form without an id, submitted while the store is reachable and the
      uploads go through, becomes one new row with status SUBMITTED. */
  lemma SubmitInsertsNewRow(form: Form, t: Table, env: SubmitEnv)
    requires IdKey !in form && DocsOf(form).Some?
    requires ReconcileAll(DocsOf(form).value, FolderName(form), env.ts, env.up).Success?
    requires env.save.link.Online? && !IdTaken(t, env.save.freshId)
    ensures SubmitForm(form, t, env).Success?
    ensures |SubmitForm(form, t, env).value.records| == |t.records| + 1
    ensures SubmitForm(form, t, env).value.records[|t.records|].status == Submitted
  {
    assert !UsesUpdatePath(SubmittedForm(form, env));
  }

  /** As written, previewing a document on the documents step submits the
      application: a new application whose uploads go through becomes a row
      with status SUBMITTED, although the applicant never reached the summary
      or ticked the declaration. */
  lemma PreviewSubmitsAsWritten(w: Wizard, t: Table, env: SubmitEnv, i: int)
    requires Shown(w, PreviewButton(i))
    requires IdKey !in w.form
    requires forall j :: 0 <= j < |DocsOf(w.form).value| && NeedsUpload(DocsOf(w.form).value[j]) ==>
               env.up(DocRequest(DocsOf(w.form).value[j], FolderName(w.form), env.ts)).Success?
    requires env.save.link.Online? && !IdTaken(t, env.save.freshId)
    ensures var r := HandleClickAsWritten(w, t, PreviewButton(i), env);
            && r.submission.Some? && r.submission.value.Success?
            && |r.submission.value.value.records| == |t.records| + 1
            && r.submission.value.value.records[|t.records|].status == Submitted
  {
    AcceptedUploadsSucceed(DocsOf(w.form).value, FolderName(w.form), env.ts, env.up);
    SubmitInsertsNewRow(w.form, t, env);
  }

  /** As written, removing any document but the last on the documents step
      of a new application submits what is left: when those uploads go
      through, the application becomes a row with status SUBMITTED. */
  lemma RemoveSubmitsAsWritten(w: Wizard, t: Table, env: SubmitEnv, i: int)
    requires Shown(w, RemoveButton(i)) && i < |DocsOf(w.form).value| - 1
    requires IdKey !in w.form
    requires var left := RemoveDocument(w, i).form;
             forall j :: 0 <= j < |DocsOf(left).value| && NeedsUpload(DocsOf(left).value[j]) ==>
               env.up(DocRequest(DocsOf(left).value[j], FolderName(left), env.ts)).Success?
    requires env.save.link.Online? && !IdTaken(t, env.save.freshId)
    ensures var r := HandleClickAsWritten(w, t, RemoveButton(i), env);
            && r.submission.Some? && r.submission.value.Success?
            && |r.submission.value.value.records| == |t.records| + 1
            && r.submission.value.value.records[|t.records|].status == Submitted
  {
    var left := RemoveDocument(w, i).form;
    AcceptedUploadsSucceed(DocsOf(left).value, FolderName(left), env.ts, env.up);
    SubmitInsertsNewRow(left, t, env);
  }

  /** The clicks as intended: only the summary's submit button, with the
      declaration ticked, submits; the preview button only opens the preview
      and the remove button only removes its document. */
  function HandleClick(w: Wizard, t: Table, c: Click, env: SubmitEnv): (r: Reaction)
    ensures !(Shown(w, c) && c.RemoveButton?) ==> r.wizard == w
    ensures Shown(w, c) && c.RemoveButton? ==> r.wizard == RemoveDocument(w, c.index)
    ensures r.submission.Some? <==> (c == SubmitButton(true) && w.step == LastStep && !w.readOnly)
    ensures r.submission.Some? ==> r.submission.value == SubmitForm(w.form, t, env)
  {
    if !Shown(w, c) then Reaction(w, None)
    else match c
      case SubmitButton(declared) => Reaction(w, if declared then Some(SubmitForm(w.form, t, env)) else None)
      case PreviewButton(_) => Reaction(w, None)
      case RemoveButton(i) => Reaction(RemoveDocument(w, i), None)
  }

  /** The two agree on the submit button; they differ on the preview and
      remove buttons. */
  lemma ClickAgreesOnSubmitButton(w: Wizard, t: Table, declared: bool, env: SubmitEnv)
    ensures HandleClick(w, t, SubmitButton(declared), env) == HandleClickAsWritten(w, t, SubmitButton(declared), env)
  {
  }

  /** Both click models leave the wizard in the same state; they differ only
      in whether a submission starts. */
  lemma ClickAgreesOnWizard(w: Wizard, t: Table, c: Click, env: SubmitEnv)
    ensures HandleClick(w, t, c, env).wizard == HandleClickAsWritten(w, t, c, env).wizard
  {
  }
}

=== FILE: dashboard.dfy ===
/** The dashboard (`src/components/Dashboard.jsx`): which view is on screen,
    the counts and lists it last fetched, the signed-in user's role, and the
    entry settings with which it opens the wizard. The wizard is part of the
    state while the form view is shown; its `readOnly` flag is a prop, so it
    always follows the dashboard's. The store, its reachability and the
    role the profile query returns make up the environment of each step. */
module Dashboard {
  import opened Outcomes
  import opened PolicyData
  import opened Storage
  import opened Reconcile
  import opened CustomerForm

  datatype View = Home | Data | Drafts | FormView | AdminView | ProfileView | SettingsView

  const AdminRole := "admin"

  datatype Dash = Dash(
    view: View,
    stats: Counts,
    submittedList: seq<Form>,
    draftList: seq<Form>,
    role: Option<string>,
    editing: Option<Form>,
    startStep: int,
    readOnly: bool,
    wizard: Option<Wizard>)

  /** What one step sees of the outside: the table, whether the store
      answers, and the role the profile query finds (`None` when there is no
      user or no profile row, in which case the role is left as it was). */
  datatype Env = Env(table: Table, link: Link, fetchedRole: Option<string>)

  /** The wizard is mounted exactly while the form view is shown, and it is
      read-only exactly when the dashboard says so. */
  predicate Consistent(d: Dash) {
    && (d.view == FormView <==> d.wizard.Some?)
    && (d.wizard.Some? ==> d.wizard.value.readOnly == d.readOnly)
  }

  /** The state before any effect has run. */
  function Initial(view: View): (d: Dash)
    ensures Consistent(d)
    ensures d.stats == Counts(0, 0) && d.role.None? && d.editing.None?
  {
    var wizard := if view == FormView then Some(Mount(None, FirstStep, false)) else None;
    Dash(view, Counts(0, 0), [], [], None, None, FirstStep, false, wizard)
  }

  // ---------------------------------------------------------------------------
  // Fetching
  // ---------------------------------------------------------------------------

  /** `fetchData`: the counts always; the submitted list only on the data
      view and the draft list only on the drafts view; every other part of
      the state is kept. */
  function FetchData(d: Dash, t: Table, link: Link): (r: Dash)
    ensures r.stats == GetCounts(t, link)
    ensures d.view == Data ==> r.submittedList == GetPolicies(t, Submitted, link)
    ensures d.view != Data ==> r.submittedList == d.submittedList
    ensures d.view == Drafts ==> r.draftList == GetPolicies(t, Draft, link)
    ensures d.view != Drafts ==> r.draftList == d.draftList
    ensures r.(stats := d.stats, submittedList := d.submittedList, draftList := d.draftList) == d
  {
    var counted := d.(stats := GetCounts(t, link));
    if d.view == Data then counted.(submittedList := GetPolicies(t, Submitted, link))
    else if d.view == Drafts then counted.(draftList := GetPolicies(t, Draft, link))
    else counted
  }

  /** Fetching twice from the same table is fetching once. */
  lemma FetchIdempotent(d: Dash, t: Table, link: Link)
    ensures FetchData(FetchData(d, t, link), t, link) == FetchData(d, t, link)
  {
  }

  /** After a fetch from a reachable store, the badge count of the list on
      screen is its length. */
  lemma FetchedCountsMatchList(d: Dash, t: Table)
    ensures d.view == Data ==> FetchData(d, t, Online).stats.submitted == |FetchData(d, t, Online).submittedList|
    ensures d.view == Drafts ==> FetchData(d, t, Online).stats.drafts == |FetchData(d, t, Online).draftList|
  {
    CountsMatchLists(t);
  }

  /** With the wizard's `readOnly` prop brought in line with the dashboard:
      a dashboard that mounts the wizard exactly on the form view is then
      consistent. */
  function Synced(d: Dash): (r: Dash)
    ensures (d.view == FormView <==> d.wizard.Some?) ==> Consistent(r)
  {
    match d.wizard
    case None => d
    case Some(w) => d.(wizard := Some(w.(readOnly := d.readOnly)))
  }

  /** `setView(v)` and the effect that follows a change of view: fetch for
      the new view and refresh the role. Entering the form view mounts the
      wizard from the entry settings; leaving it unmounts the wizard. Setting
      the view it already shows only passes the props down. */
  function SetView(d: Dash, v: View, env: Env): (r: Dash)
    ensures r.view == v && r.editing == d.editing && r.startStep == d.startStep && r.readOnly == d.readOnly
    ensures v != d.view && v == FormView ==> r.wizard == Some(Mount(d.editing, d.startStep, d.readOnly))
    ensures v != FormView ==> r.wizard.None? || v == d.view
    ensures v != d.view ==> r.stats == GetCounts(env.table, env.link)
    ensures v != d.view && v == Data ==> r.submittedList == GetPolicies(env.table, Submitted, env.link)
    ensures v != d.view && v == Drafts ==> r.draftList == GetPolicies(env.table, Draft, env.link)
    ensures v == d.view || v != Data ==> r.submittedList == d.submittedList
    ensures v == d.view || v != Drafts ==> r.draftList == d.draftList
    ensures v == d.view ==> r.stats == d.stats && r.role == d.role
    ensures v != d.view && env.fetchedRole.Some? ==> r.role == env.fetchedRole
    ensures env.fetchedRole.None? ==> r.role == d.role
    ensures Consistent(d) ==> Consistent(r)
  {
    if v == d.view then Synced(d)
    else
      var wizard := if v == FormView then Some(Mount(d.editing, d.startStep, d.readOnly)) else None;
      var fetched := FetchData(d.(view := v, wizard := wizard), env.table, env.link);
      fetched.(role := if env.fetchedRole.Some? then env.fetchedRole else d.role)
  }

  // ---------------------------------------------------------------------------
  // Opening and closing the wizard
  // ---------------------------------------------------------------------------

  /** `handleStartNew`: no record, step 1, editable, then the form view. */
  function StartNew(d: Dash, env: Env): (r: Dash)
    ensures r.view == FormView && r.editing.None? && r.startStep == FirstStep && !r.readOnly
    ensures d.view != FormView ==> r.wizard == Some(Mount(None, FirstStep, false))
  {
    SetView(d.(editing := None, startStep := FirstStep, readOnly := false), FormView, env)
  }

  /** `handleResumeDraft(draft)`: that draft, step 1, editable. */
  function ResumeDraft(d: Dash, draft: Form, env: Env): (r: Dash)
    ensures r.view == FormView && r.editing == Some(draft) && r.startStep == FirstStep && !r.readOnly
    ensures d.view != FormView ==> r.wizard == Some(Mount(Some(draft), FirstStep, false))
  {
    SetView(d.(editing := Some(draft), startStep := FirstStep, readOnly := false), FormView, env)
  }

  /** The submitted list's row action: that policy, on the summary, read-only. */
  function ViewSubmitted(d: Dash, policy: Form, env: Env): (r: Dash)
    ensures r.view == FormView && r.editing == Some(policy) && r.startStep == LastStep && r.readOnly
    ensures d.view != FormView ==> r.wizard == Some(Mount(Some(policy), LastStep, true))
  {
    SetView(d.(editing := Some(policy), startStep := LastStep, readOnly := true), FormView, env)
  }

  /** `onEdit`: only the read-only flag is cleared; the record, the start
      step, and the wizard's step and form stay as they are. */
  function EditApplication(d: Dash): (r: Dash)
    ensures !r.readOnly
    ensures r.(readOnly := d.readOnly, wizard := d.wizard) == d
    ensures r.wizard.Some? <==> d.wizard.Some?
    ensures r.wizard.Some? ==> r.wizard.value == d.wizard.value.(readOnly := false)
    ensures (d.view == FormView <==> d.wizard.Some?) ==> Consistent(r)
  {
    Synced(d.(readOnly := false))
  }

  /** `handleFormClose` (cancel, close, or a successful save): back to the
      home view, which refetches, and one more fetch made with the view the
      handler was created under (the form view, so that fetch brings only
      the counts). The handler exists only while the form is shown. */
  function FormClose(d: Dash, env: Env): (r: Dash)
    requires d.view == FormView
    ensures r.view == Home && r.wizard.None?
    ensures r.stats == GetCounts(env.table, env.link)
    ensures r.submittedList == d.submittedList && r.draftList == d.draftList
    ensures Consistent(r)
  {
    var home := SetView(d, Home, env);
    FetchData(home.(view := d.view), env.table, env.link).(view := Home)
  }

  /** Viewing a submitted policy and pressing "Edit Application" leaves an
      editable wizard on the summary, holding that policy. */
  lemma ViewThenEdit(d: Dash, policy: Form, env: Env)
    requires d.view != FormView
    ensures var r := EditApplication(ViewSubmitted(d, policy, env));
            r.wizard == Some(Wizard(LastStep, policy, false, false))
  {
  }

  /** A resumed draft that came from the store carries its row's id, so
      saving it again from the wizard updates that row in place: the table
      keeps its size and the row is a draft. */
  lemma ResumedDraftSavesInPlace(d: Dash, t: Table, j: nat, env: Env, save: SaveEnv)
    requires j < |t.records| && t.records[j].status == Draft
    requires |t.records[j].id| > IdThreshold && UniqueIds(t)
    requires d.view != FormView && save.link.Online?
    ensures var w := ResumeDraft(d, Unwrap(t.records[j]), env).wizard.value;
            && SaveDraft(w, t, save).Success?
            && |SaveDraft(w, t, save).value.records| == |t.records|
            && SaveDraft(w, t, save).value.records[j].id == t.records[j].id
            && SaveDraft(w, t, save).value.records[j].status == Draft
  {
    var x := Unwrap(t.records[j]);
    assert UsesUpdatePath(x);
    var k := RowIndex(t.records, x[IdKey]).value;
    assert t.records[k].id == t.records[j].id;
  }

  // ---------------------------------------------------------------------------
  // Deleting
  // ---------------------------------------------------------------------------

  /** `handleDelete(policy)`: only when confirmed, the rows with the policy's
      id go (a failure is swallowed), then the dashboard refetches. The new
      table is returned alongside. */
  function Delete(d: Dash, policy: Form, confirmed: bool, env: Env): (r: (Dash, Table))
    ensures !confirmed ==> r == (d, env.table)
    ensures confirmed ==> r.1 == DeletePolicy(env.table, Field(policy, IdKey).GetOr(Null), env.link)
    ensures confirmed ==> r.0 == FetchData(d, r.1, env.link)
  {
    if !confirmed then (d, env.table)
    else
      var t := DeletePolicy(env.table, Field(policy, IdKey).GetOr(Null), env.link);
      (FetchData(d, t, env.link), t)
  }

  /** After a confirmed delete on the drafts view, no listed draft carries
      the deleted id. */
  lemma DeletedDraftIsGone(d: Dash, policy: Form, env: Env, id: string)
    requires d.view == Drafts && env.link.Online?
    requires Field(policy, IdKey) == Some(Str(id))
    ensures forall x :: x in Delete(d, policy, true, env).0.draftList ==> x[IdKey] != Str(id)
  {
    var t := Delete(d, policy, true, env).1;
    forall x | x in Delete(d, policy, true, env).0.draftList ensures x[IdKey] != Str(id) {
      var j :| 0 <= j < |t.records| && t.records[j].status == Draft && x == Unwrap(t.records[j]);
      assert t.records[j] in t.records;
      assert Kept(t.records[j], Str(id));
    }
  }

  /** After a confirmed delete on the drafts view, every other draft is still
      listed. */
  lemma DeleteKeepsOtherDrafts(d: Dash, policy: Form, env: Env, id: string)
    requires d.view == Drafts && env.link.Online?
    requires Field(policy, IdKey) == Some(Str(id))
    ensures forall x :: x in GetPolicies(env.table, Draft, Online) && x[IdKey] != Str(id) ==>
              x in Delete(d, policy, true, env).0.draftList
  {
    var t := Delete(d, policy, true, env).1;
    forall x | x in GetPolicies(env.table, Draft, Online) && x[IdKey] != Str(id)
      ensures x in Delete(d, policy, true, env).0.draftList
    {
      var j :| 0 <= j < |env.table.records| && env.table.records[j].status == Draft && x == Unwrap(env.table.records[j]);
      var rec := env.table.records[j];
      assert Kept(rec, Str(id));
      assert rec in t.records by {
        assert t.records[KeptCount(env.table.records[..j], Str(id))] == rec;
      }
      var k :| 0 <= k < |t.records| && t.records[k] == rec;
      assert Unwrap(t.records[k]) in GetPolicies(t, Draft, Online);
    }
  }

  // ---------------------------------------------------------------------------
  // What is on screen
  // ---------------------------------------------------------------------------

  datatype Screen =
    | FormScreen(wizard: Wizard)
    | Welcome(stats: Counts)
    | PolicyTable(policies: seq<Form>, isDraft: bool)
    | AdminScreen
    | ProfileScreen
    | SettingsScreen
    | Blank

  /** The main area of the dashboard for its current state. */
  function ScreenOf(d: Dash): (s: Screen)
    ensures s.FormScreen? <==> d.view == FormView && d.wizard.Some?
    ensures s.Welcome? <==> d.view == Home
    ensures s.PolicyTable? <==> d.view == Data || d.view == Drafts
    ensures s.PolicyTable? ==> (s.isDraft <==> d.view == Drafts)
    ensures s.PolicyTable? ==> s.policies == (if d.view == Drafts then d.draftList else d.submittedList)
  {
    match d.view
    case FormView => if d.wizard.Some? then FormScreen(d.wizard.value) else Blank
    case Home => Welcome(d.stats)
    case Data => PolicyTable(d.submittedList, false)
    case Drafts => PolicyTable(d.draftList, true)
    case AdminView => if d.role == Some(AdminRole) then AdminScreen else Blank
    case ProfileView => ProfileScreen
    case SettingsView => SettingsScreen
  }

  /** The admin panel is on screen exactly on the admin view for an admin. */
  lemma AdminGate(d: Dash)
    ensures ScreenOf(d) == AdminScreen <==> d.view == AdminView && d.role == Some(AdminRole)
  {
  }

  // ---------------------------------------------------------------------------
  // Sessions
  // ---------------------------------------------------------------------------

  /** Everything that can happen to the dashboard. */
  datatype Action =
    | ChangeView(v: View)
    | NewApplication
    | Resume(draft: Form)
    | ViewPolicy(policy: Form)
    | EditPressed
    | CloseForm
    | DeletePressed(policy: Form, confirmed: bool)
    | WizardEdit(e: Edit)

  function Step(d: Dash, a: Action, env: Env): Dash {
    match a
    case ChangeView(v) => SetView(d, v, env)
    case NewApplication => StartNew(d, env)
    case Resume(draft) => ResumeDraft(d, draft, env)
    case ViewPolicy(p) => ViewSubmitted(d, p, env)
    case EditPressed => EditApplication(d)
    case CloseForm => if d.view == FormView then FormClose(d, env) else d
    case DeletePressed(p, ok) => Delete(d, p, ok, env).0
    case WizardEdit(e) =>
      match d.wizard
      case None => d
      case Some(w) => d.(wizard := Some(Apply(w, e)))
  }

  /** Runs the actions in order, step `k` seeing `envs[k]`. */
  function Run(d: Dash, actions: seq<Action>, envs: seq<Env>): Dash
    requires |envs| == |actions|
    decreases |actions|
  {
    if |actions| == 0 then d else Run(Step(d, actions[0], envs[0]), actions[1..], envs[1..])
  }

  /** Every session keeps the wizard mounted exactly on the form view and in
      step with the read-only flag. */
  lemma {:induction false} RunKeepsConsistent(d: Dash, actions: seq<Action>, envs: seq<Env>)
    requires Consistent(d) && |envs| == |actions|
    ensures Consistent(Run(d, actions, envs))
    decreases |actions|
  {
    if |actions| > 0 {
      var d1 := Step(d, actions[0], envs[0]);
      assert Consistent(d1);
      RunKeepsConsistent(d1, actions[1..], envs[1..]);
    }
  }

  /** Once a submitted policy is opened for viewing, no sequence of wizard
      edits changes its form until "Edit Application" is pressed. */
  lemma {:induction false} ViewingFreezesPolicy(d: Dash, es: seq<Edit>)
    requires d.wizard.Some? && d.wizard.value.readOnly && !d.wizard.value.scanning
    ensures var r := Run(d, seq(|es|, k requires 0 <= k < |es| => WizardEdit(es[k])),
                         seq(|es|, k requires 0 <= k < |es| => Env(Table([]), Online, None)));
            r.wizard == Some(Replay(d.wizard.value, es))
    ensures Replay(d.wizard.value, es).form == d.wizard.value.form
    decreases |es|
  {
    ReadOnlyFreezesForm(d.wizard.value, es);
    if |es| > 0 {
      var d1 := d.(wizard := Some(Apply(d.wizard.value, es[0])));
      ReadOnlyFreezesForm(Apply(d.wizard.value, es[0]), es[1..]);
      assert Apply(d.wizard.value, es[0]).form == d.wizard.value.form;
      ViewingFreezesPolicy(d1, es[1..]);
      var acts := seq(|es|, k requires 0 <= k < |es| => WizardEdit(es[k]));
      var envs := seq(|es|, k requires 0 <= k < |es| => Env(Table([]), Online, None));
      assert acts[1..] == seq(|es[1..]|, k requires 0 <= k < |es[1..]| => WizardEdit(es[1..][k]));
      assert envs[1..] == seq(|es[1..]|, k requires 0 <= k < |es[1..]| => Env(Table([]), Online, None));
    }
  }
}

=== FILE: js_text.dfy ===
/** The few JavaScript string operations the application relies on, stated on
    `string` (a sequence of Unicode scalar values): `trim`, `startsWith` and
    the decimal rendering of an integer inside a template literal. The
    one-character searches `indexOf`/`lastIndexOf` serve the model's own
    parsing of upload paths. */
module JsText {
  import opened Outcomes

  // ---------------------------------------------------------------------------
  // Whitespace and trim
  // ---------------------------------------------------------------------------

  /** ECMAScript WhiteSpace and LineTerminator code points: exactly what
      `String.prototype.trim` strips from both ends. */
  predicate IsSpace(c: char) {
    || c == '\t' || c == '\n' || c == '\U{000B}' || c == '\U{000C}' || c == '\r'
    || c == ' ' || c == '\U{00A0}' || c == '\U{1680}'
    || ('\U{2000}' <= c <= '\U{200A}')
    || c == '\U{2028}' || c == '\U{2029}' || c == '\U{202F}' || c == '\U{205F}'
    || c == '\U{3000}' || c == '\U{FEFF}'
  }

  /** Every character of `s` satisfies `p`. The trimming functions below are
      stated for an arbitrary character class `p`; `Trim` fixes it to `IsSpace`. */
  predicate AllIn(s: string, p: char -> bool) {
    forall i :: 0 <= i < |s| ==> p(s[i])
  }

  predicate AllSpace(s: string) {
    AllIn(s, IsSpace)
  }

  /** The number of leading characters of `s` that lie in class `p`. */
  function LeadLen(s: string, p: char -> bool): (n: nat)
    ensures n <= |s|
    ensures forall k :: 0 <= k < n ==> p(s[k])
    ensures n < |s| ==> !p(s[n])
    decreases |s|
  {
    if |s| > 0 && p(s[0]) then 1 + LeadLen(s[1..], p) else 0
  }

  /** The number of trailing characters of `s` that lie in class `p`. */
  function TrailLen(s: string, p: char -> bool): (n: nat)
    ensures n <= |s|
    ensures forall k :: |s| - n <= k < |s| ==> p(s[k])
    ensures n < |s| ==> !p(s[|s| - n - 1])
    decreases |s|
  {
    if |s| > 0 && p(s[|s| - 1]) then 1 + TrailLen(s[..|s| - 1], p) else 0
  }

  /** Trimming both ends: what is left is an infix of `s`, everything cut off
      lies in `p`, the ends of the result lie outside `p`, and the result is
      empty exactly when all of `s` lies in `p`. */
  function TrimBy(s: string, p: char -> bool): (r: string)
    ensures |r| <= |s|
    ensures r == [] || (!p(r[0]) && !p(r[|r| - 1]))
    ensures r == [] <==> AllIn(s, p)
    ensures exists i :: 0 <= i <= |s| - |r| && s[i..i + |r|] == r
                        && AllIn(s[..i], p) && AllIn(s[i + |r|..], p)
  {
    var i := LeadLen(s, p);
    if i == |s| then assert AllIn(s[..|s|], p) && s[|s|..] == []; [] else
    var j := |s| - TrailLen(s, p);
    assert !p(s[i]);
    assert AllIn(s[..i], p) && AllIn(s[j..], p);
    s[i..j]
  }

  /** `r` is `s` with some whitespace cut off at either end. */
  predicate OuterSpaceCut(s: string, r: string) {
    exists i :: 0 <= i <= |s| - |r| && s[i..i + |r|] == r && AllSpace(s[..i]) && AllSpace(s[i + |r|..])
  }

  /** `s.trim()`: `s` with its leading and trailing whitespace cut off, so no
      whitespace at either end, and empty exactly when `s` is all whitespace. */
  function Trim(s: string): (r: string)
    ensures |r| <= |s|
    ensures r == [] || (!IsSpace(r[0]) && !IsSpace(r[|r| - 1]))
    ensures r == [] <==> AllSpace(s)
    ensures OuterSpaceCut(s, r)
  {
    TrimBy(s, IsSpace)
  }

  /** Trimming twice is trimming once. */
  lemma TrimIdempotent(s: string)
    ensures Trim(Trim(s)) == Trim(s)
  {
    var r := Trim(s);
    if r != [] {
      assert LeadLen(r, IsSpace) == 0;
      assert TrailLen(r, IsSpace) == 0;
      assert r[0..|r|] == r;
    }
  }

  // ---------------------------------------------------------------------------
  // Prefixes and character search
  // ---------------------------------------------------------------------------

  /** `s.startsWith(prefix)`. */
  predicate StartsWith(s: string, prefix: string) {
    |prefix| <= |s| && s[..|prefix|] == prefix
  }

  /** `s.endsWith(suffix)`. */
  predicate EndsWith(s: string, suffix: string) {
    |suffix| <= |s| && s[|s| - |suffix|..] == suffix
  }

  /** `s.indexOf(c)`, with -1 written as `None`. */
  function IndexOf(s: string, c: char): (r: Option<nat>)
    ensures r.None? <==> c !in s
    ensures r.Some? ==> r.value < |s| && s[r.value] == c && c !in s[..r.value]
  {
    if |s| == 0 then None
    else if s[0] == c then Some(0)
    else match IndexOf(s[1..], c)
      case None => None
      case Some(k) => assert s[..k + 1] == [s[0]] + s[1..][..k]; Some(k + 1)
  }

  /** `s.lastIndexOf(c)`, with -1 written as `None`. */
  function LastIndexOf(s: string, c: char): (r: Option<nat>)
    ensures r.None? <==> c !in s
    ensures r.Some? ==> r.value < |s| && s[r.value] == c && c !in s[r.value + 1..]
    decreases |s|
  {
    if |s| == 0 then None
    else if s[|s| - 1] == c then Some(|s| - 1)
    else
      var init := s[..|s| - 1];
      assert s == init + [s[|s| - 1]];
      match LastIndexOf(init, c)
      case None => None
      case Some(k) => assert s[k + 1..] == init[k + 1..] + [s[|s| - 1]]; Some(k)
  }

  // ---------------------------------------------------------------------------
  // Decimal numbers
  // ---------------------------------------------------------------------------

  predicate IsDigit(c: char) {
    '0' <= c <= '9'
  }

  predicate AllDigits(s: string) {
    forall i :: 0 <= i < |s| ==> IsDigit(s[i])
  }

  function DigitChar(d: nat): (c: char)
    requires d < 10
    ensures IsDigit(c) && c as int - '0' as int == d
  {
    ('0' as int + d) as char
  }

  function DigitValue(c: char): (d: nat)
    requires IsDigit(c)
    ensures d < 10 && DigitChar(d) == c
  {
    c as int - '0' as int
  }

  /** The text JavaScript produces for a non-negative integer in a template
      literal (`${n}`): its decimal digits, most significant first, with no
      leading zero. */
  function DecimalString(n: nat): (r: string)
    ensures |r| > 0 && AllDigits(r)
    ensures r[0] == '0' ==> n == 0
    decreases n
  {
    if n < 10 then [DigitChar(n)] else DecimalString(n / 10) + [DigitChar(n % 10)]
  }

  /** The value of a string of decimal digits (the empty string reads as 0). */
  function ParseDecimal(s: string): nat
    requires AllDigits(s)
    decreases |s|
  {
    if |s| == 0 then 0 else 10 * ParseDecimal(s[..|s| - 1]) + DigitValue(s[|s| - 1])
  }

  /** Reading back the digits of a number gives the number. */
  lemma {:induction false} ParseDecimalString(n: nat)
    ensures ParseDecimal(DecimalString(n)) == n
    decreases n
  {
    var r := DecimalString(n);
    if n >= 10 {
      assert r[..|r| - 1] == DecimalString(n / 10);
      ParseDecimalString(n / 10);
    }
  }

  /** `${n}` for any integer: a minus sign before the digits of a negative one. */
  function IntString(n: int): (r: string)
    ensures |r| > 0
    ensures n < 0 <==> r[0] == '-'
  {
    if n < 0 then "-" + DecimalString(-n) else DecimalString(n)
  }
}

=== FILE: outcomes.dfy ===
/** Option and Result: the shapes used for JavaScript's null/undefined and for
    thrown-or-returned values throughout the model. */
module Outcomes {

  datatype Option<+T> = None | Some(value: T) {
    function GetOr(default: T): T {
      match this
      case Some(v) => v
      case None => default
    }
  }

  /** `Failure` stands for a rejected promise (a thrown error); `Success` for a
      resolved one. */
  datatype Result<+T, +E> = Success(value: T) | Failure(error: E)
}

=== FILE: policy_data.dfy ===
/** The records the application keeps. The form is a JSON-like object (a map
    from field name to value) because the code spreads, overrides and strips
    its keys by name; documents and list rows are the structured values inside
    it. A stored policy is one row of the `policies` table. */
module PolicyData {
  import opened Outcomes

  /** The `status` column of a policy row. */
  datatype Status = Draft | Submitted

  /** A browser `File` chosen in the file dialog. Its bytes are not modelled:
      only its name and type reach the logic. */
  datatype FileHandle = FileHandle(name: string, mime: string)

  /** The `file` slot of a document.
      - `NoFile`: null or absent (a captured photo never has one);
      - `Live`: a browser `File`, present only in memory;
      - `Detached`: what a `File` turns into once the form is written to the
        store as JSON and read back: an empty object, truthy but nameless. */
  datatype FileSlot = NoFile | Live(handle: FileHandle) | Detached

  /** One entry of `formData.documents`. `data` is the base64 data URL kept
      for preview (null once uploaded); `url` is the public URL of the upload. */
  datatype Document = Document(
    name: string,
    size: string,
    mime: string,
    data: Option<string>,
    file: FileSlot,
    url: Option<string>)

  /** One row of `familyHistory` or `previousPolicies`: field name to text. */
  type Entry = map<string, string>

  /** A form field's value. Text inputs hold `Str`; `Num` and `Null` appear
      only through data that did not come from an input (a numeric id, a
      cleared field). */
  datatype Value =
    | Null
    | Str(s: string)
    | Num(n: int)
    | Docs(docs: seq<Document>)
    | Rows(rows: seq<Entry>)

  /** The application form (`formData`), and also what a policy looks like
      once read back from the store with its metadata merged in. */
  type Form = map<string, Value>

  /** One row of the `policies` table. `formData` is the `form_data` JSON
      column; `updatedAt` is the ISO timestamp written with every save. */
  datatype Record = Record(id: string, status: Status, formData: Form, updatedAt: string)

  /** The `policies` table, rows in order of creation (oldest first). */
  datatype Table = Table(records: seq<Record>)

  const IdKey := "id"
  const StatusKey := "status"
  const LastModifiedKey := "lastModified"
  const DocumentsKey := "documents"
  const FamilyKey := "familyHistory"
  const PoliciesKey := "previousPolicies"
  const FirstNameKey := "firstName"
  const LastNameKey := "lastName"
  const NomineeDobKey := "nomineeDob"
}

=== FILE: reconcile.dfy ===
/** The submit-time attachment pass of the wizard
    (`handleSubmit` in `src/components/CustomerForm.jsx`): every document
    whose payload is still local is uploaded and then carries a URL instead;
    everything else passes through; one failed upload fails the whole pass.

    `Promise.all` is modelled as a sequential map: the result is all-or-
    nothing and keeps the order of the list, which is all the caller sees.

    Two versions of the per-document rule are given. `ReconcileDoc` is the
    one the rest of the model uses. `ReconcileDocAsWritten` follows the code
    literally, including its test `if (doc.file)`, which is also true of the
    empty object a `File` becomes once a draft has been stored and read back. */
module Reconcile {
  import opened Outcomes
  import opened JsText
  import opened PolicyData
  import opened Storage

  // ---------------------------------------------------------------------------
  // The upload folder
  // ---------------------------------------------------------------------------

  /** The folder used when the applicant's name is blank. */
  const FallbackFolder := "Unnamed_Customer"

  /** `"[object Object]"` joined by commas, `n` times: how an array of objects
      renders inside a template literal. */
  function ObjectList(n: nat): (r: string)
    ensures r == "" <==> n == 0
    ensures n > 0 ==> |r| == 16 * n - 1
  {
    if n == 0 then "" else if n == 1 then "[object Object]" else ObjectList(n - 1) + ",[object Object]"
  }

  /** `${value}` for a form field, absent fields included. Only an empty
      text or an empty list renders as the empty string: an absent or null
      field renders as a word. */
  function FieldText(v: Option<Value>): (r: string)
    ensures r == "" <==> v == Some(Str("")) || v == Some(Docs([])) || v == Some(Rows([]))
    ensures forall s :: v == Some(Str(s)) ==> r == s
  {
    match v
    case None => "undefined"
    case Some(Null) => "null"
    case Some(Str(s)) => s
    case Some(Num(n)) => IntString(n)
    case Some(Docs(ds)) => ObjectList(|ds|)
    case Some(Rows(rs)) => ObjectList(|rs|)
  }

  function Field(form: Form, key: string): Option<Value> {
    if key in form then Some(form[key]) else None
  }

  /** `` `${firstName} ${lastName}`.trim() || 'Unnamed_Customer' ``: the
      trimmed full name, or the fallback folder when that is empty. */
  function FolderName(form: Form): (folder: string)
    ensures folder != ""
    ensures var full := Trim(FieldText(Field(form, FirstNameKey)) + " " + FieldText(Field(form, LastNameKey)));
            (full != "" ==> folder == full) && (full == "" ==> folder == FallbackFolder)
  {
    var full := Trim(FieldText(Field(form, FirstNameKey)) + " " + FieldText(Field(form, LastNameKey)));
    if full != "" then full else FallbackFolder
  }

  /** A joined name is blank exactly when both parts are. */
  lemma {:induction false} BlankJoin(first: string, last: string)
    ensures AllSpace(first + " " + last) <==> AllSpace(first) && AllSpace(last)
  {
    var joined := first + " " + last;
    assert IsSpace(' ');
    if AllSpace(joined) {
      forall i | 0 <= i < |first| ensures IsSpace(first[i]) {
        assert first[i] == joined[i];
      }
      forall i | 0 <= i < |last| ensures IsSpace(last[i]) {
        assert last[i] == joined[|first| + 1 + i];
      }
    }
    if AllSpace(first) && AllSpace(last) {
      forall i | 0 <= i < |joined| ensures IsSpace(joined[i]) {
        if i < |first| { assert joined[i] == first[i]; }
        else if i > |first| { assert joined[i] == last[i - |first| - 1]; }
      }
    }
  }

  /** With text names, the upload folder falls back exactly when both names
      are blank; otherwise it is the trimmed full name. */
  lemma FolderFallsBackOnBlankName(form: Form, first: string, last: string)
    requires Field(form, FirstNameKey) == Some(Str(first))
    requires Field(form, LastNameKey) == Some(Str(last))
    ensures AllSpace(first) && AllSpace(last) ==> FolderName(form) == FallbackFolder
    ensures !(AllSpace(first) && AllSpace(last)) ==>
              FolderName(form) == Trim(first + " " + last) && FolderName(form) != ""
  {
    BlankJoin(first, last);
  }

  // ---------------------------------------------------------------------------
  // One document
  // ---------------------------------------------------------------------------

  /** `doc.data && doc.data.startsWith('data:')`. */
  predicate HasDataUrl(d: Document) {
    d.data.Some? && StartsWith(d.data.value, "data:")
  }

  /** A document whose payload is still local: it holds a browser `File`, or
      a data URL (a captured photo, or a file whose `File` was lost to a JSON
      round trip). */
  predicate NeedsUpload(d: Document): (b: bool)
    ensures d.file.Live? ==> b
    ensures !d.file.Live? ==> (b <==> HasDataUrl(d))
  {
    d.file.Live? || HasDataUrl(d)
  }

  /** What is uploaded for a pending document: its `File` when it still has
      one, otherwise a `File` built from its data URL, its name and its type. */
  function SourceBlob(d: Document): (b: Blob)
    requires NeedsUpload(d)
    ensures BlobName(b).Some?
  {
    if d.file.Live? then FileBlob(d.file.handle) else DataUrlBlob(d.data.value, d.name, d.mime)
  }

  /** The upload request made for a pending document. */
  function DocRequest(d: Document, folder: string, ts: nat): UploadRequest
    requires NeedsUpload(d)
  {
    RequestFor(SourceBlob(d), folder, ts).value
  }

  /** The document after its payload went up as `url`: the URL recorded,
      `data` and `file` cleared, everything else kept. */
  function Uploaded(d: Document, url: string): (r: Document)
    ensures !NeedsUpload(r) && r.url == Some(url)
    ensures r.name == d.name && r.size == d.size && r.mime == d.mime
    ensures SerializeDocument(r) == r
  {
    d.(url := Some(url), data := None, file := NoFile)
  }

  /** One element of the pass: a pending document is uploaded and comes back
      with its URL and no payload; any other document comes back as it was. */
  function ReconcileDoc(d: Document, folder: string, ts: nat, up: Uploader): (r: Result<Document, StoreError>)
    ensures !NeedsUpload(d) ==> r == Success(d)
    ensures NeedsUpload(d) ==>
              match up(DocRequest(d, folder, ts))
              case Success(url) => r == Success(Uploaded(d, url))
              case Failure(e) => r == Failure(UploadRejected(e))
    ensures r.Success? ==> !NeedsUpload(r.value)
    ensures r.Success? ==> r.value.name == d.name && r.value.size == d.size && r.value.mime == d.mime
  {
    if NeedsUpload(d) then
      match UploadFile(SourceBlob(d), folder, ts, up)
      case Success(url) => Success(Uploaded(d, url))
      case Failure(e) => Failure(e)
    else Success(d)
  }

  // ---------------------------------------------------------------------------
  // The whole list
  // ---------------------------------------------------------------------------

  /** The pass over the document list: same length and order, each element
      reconciled; it fails, with the error of a failing element, as soon as
      any element fails. */
  function ReconcileAll(docs: seq<Document>, folder: string, ts: nat, up: Uploader)
    : (r: Result<seq<Document>, StoreError>)
    ensures r.Success? <==> forall i :: 0 <= i < |docs| ==> ReconcileDoc(docs[i], folder, ts, up).Success?
    ensures r.Success? ==> |r.value| == |docs|
    ensures r.Success? ==> forall i :: 0 <= i < |docs| ==> r.value[i] == ReconcileDoc(docs[i], folder, ts, up).value
    ensures r.Failure? ==> exists i :: 0 <= i < |docs| && ReconcileDoc(docs[i], folder, ts, up) == Failure(r.error)
    decreases |docs|
  {
    if |docs| == 0 then Success([])
    else
      match ReconcileDoc(docs[0], folder, ts, up)
      case Failure(e) => Failure(e)
      case Success(d) =>
        var rest := ReconcileAll(docs[1..], folder, ts, up);
        assert forall i :: 1 <= i < |docs| ==> docs[i] == docs[1..][i - 1];
        match rest
        case Failure(e) => Failure(e)
        case Success(ds) => Success([d] + ds)
  }

  /** The number of documents in `docs` that need an upload. */
  function PendingCount(docs: seq<Document>): nat
    decreases |docs|
  {
    if |docs| == 0 then 0
    else PendingCount(docs[..|docs| - 1]) + (if NeedsUpload(docs[|docs| - 1]) then 1 else 0)
  }

  /** The documents that need an upload, in list order: pending document `i`
      comes after exactly the pending documents before it. */
  function Pending(docs: seq<Document>): (p: seq<Document>)
    ensures |p| == PendingCount(docs) <= |docs|
    ensures forall d :: d in p ==> d in docs && NeedsUpload(d)
    ensures forall i :: 0 <= i < |docs| && NeedsUpload(docs[i]) ==>
              PendingCount(docs[..i]) < |p| && p[PendingCount(docs[..i])] == docs[i]
    decreases |docs|
  {
    if |docs| == 0 then []
    else
      var init := docs[..|docs| - 1];
      var last := docs[|docs| - 1];
      var rest := Pending(init);
      var tail := if NeedsUpload(last) then [last] else [];
      assert docs[..|init|] == init;
      forall i | 0 <= i < |docs| && NeedsUpload(docs[i])
        ensures PendingCount(docs[..i]) < |rest + tail|
        ensures (rest + tail)[PendingCount(docs[..i])] == docs[i]
      {
        if i < |init| {
          assert docs[..i] == init[..i] && docs[i] == init[i];
        }
      }
      rest + tail
  }

  /** The uploads the pass issues: one per pending document and none for any
      other, in list order (with `Promise.all` every one is started, whatever
      the others do). */
  function UploadRequests(docs: seq<Document>, folder: string, ts: nat): (qs: seq<UploadRequest>)
    ensures |qs| == PendingCount(docs) <= |docs|
    ensures (forall i :: 0 <= i < |docs| ==> !NeedsUpload(docs[i])) ==> qs == []
    ensures forall i :: 0 <= i < |docs| && NeedsUpload(docs[i]) ==>
              PendingCount(docs[..i]) < |qs| && qs[PendingCount(docs[..i])] == DocRequest(docs[i], folder, ts)
    ensures forall q :: q in qs ==>
              exists i :: 0 <= i < |docs| && NeedsUpload(docs[i]) && q == DocRequest(docs[i], folder, ts)
  {
    var p := Pending(docs);
    var qs := seq(|p|, k requires 0 <= k < |p| => DocRequest(p[k], folder, ts));
    RequestsInOrder(docs, folder, ts, p, qs);
    RequestsFromPending(docs, folder, ts, p, qs);
    qs
  }

  /** Requests built from the pending documents, one each and in order, put
      each pending document's request in its place. */
  lemma RequestsInOrder(docs: seq<Document>, folder: string, ts: nat, p: seq<Document>, qs: seq<UploadRequest>)
    requires |p| == PendingCount(docs)
    requires forall d :: d in p ==> d in docs && NeedsUpload(d)
    requires forall i :: 0 <= i < |docs| && NeedsUpload(docs[i]) ==>
               PendingCount(docs[..i]) < |p| && p[PendingCount(docs[..i])] == docs[i]
    requires |qs| == |p| && forall k :: 0 <= k < |p| ==> qs[k] == DocRequest(p[k], folder, ts)
    ensures (forall i :: 0 <= i < |docs| ==> !NeedsUpload(docs[i])) ==> qs == []
    ensures forall i :: 0 <= i < |docs| && NeedsUpload(docs[i]) ==>
              PendingCount(docs[..i]) < |qs| && qs[PendingCount(docs[..i])] == DocRequest(docs[i], folder, ts)
  {
    if p != [] {
      assert p[0] in docs;
    }
  }

  /** Every request built from a pending document belongs to a pending
      document of the list. */
  lemma RequestsFromPending(docs: seq<Document>, folder: string, ts: nat, p: seq<Document>, qs: seq<UploadRequest>)
    requires forall d :: d in p ==> d in docs && NeedsUpload(d)
    requires |qs| == |p| && forall k :: 0 <= k < |p| ==> qs[k] == DocRequest(p[k], folder, ts)
    ensures forall q :: q in qs ==>
              exists i :: 0 <= i < |docs| && NeedsUpload(docs[i]) && q == DocRequest(docs[i], folder, ts)
  {
    forall q | q in qs
      ensures exists i :: 0 <= i < |docs| && NeedsUpload(docs[i]) && q == DocRequest(docs[i], folder, ts)
    {
      var k :| 0 <= k < |p| && q == qs[k];
      assert p[k] in docs;
    }
  }

  /** One refused upload fails the whole pass. */
  lemma OneFailureFailsAll(docs: seq<Document>, folder: string, ts: nat, up: Uploader, i: nat)
    requires i < |docs| && NeedsUpload(docs[i])
    requires up(DocRequest(docs[i], folder, ts)).Failure?
    ensures ReconcileAll(docs, folder, ts, up).Failure?
  {
  }

  /** A second pass over the output of a successful pass issues no upload and
      returns the list unchanged, whatever the folder, time or bucket. */
  lemma SecondPassIsIdle(docs: seq<Document>, folder: string, ts: nat, up: Uploader,
                         folder': string, ts': nat, up': Uploader)
    requires ReconcileAll(docs, folder, ts, up).Success?
    ensures var out := ReconcileAll(docs, folder, ts, up).value;
            && UploadRequests(out, folder', ts') == []
            && ReconcileAll(out, folder', ts', up') == Success(out)
  {
    var out := ReconcileAll(docs, folder, ts, up).value;
    assert forall i :: 0 <= i < |out| ==> !NeedsUpload(out[i]);
    var again := ReconcileAll(out, folder', ts', up');
    assert again.Success?;
    assert again.value == out;
  }

  /** The object name a pending document is stored under: its sanitised file
      name. */
  function StoredName(d: Document): string
    requires NeedsUpload(d)
  {
    Sanitize(BlobName(SourceBlob(d)).value)
  }

  /** Within one pass (one folder, one timestamp) two pending documents go to
      the same object path exactly when their names sanitise alike. The
      bucket refuses a second upload to a path already taken, which the
      stateless `Uploader` does not represent. */
  lemma SamePathIffSameStoredName(d1: Document, d2: Document, folder: string, ts: nat)
    requires NeedsUpload(d1) && NeedsUpload(d2)
    ensures DocRequest(d1, folder, ts).path == DocRequest(d2, folder, ts).path <==> StoredName(d1) == StoredName(d2)
  {
    var p1, p2 := DocRequest(d1, folder, ts).path, DocRequest(d2, folder, ts).path;
    assert ParsePath(p1) == Some((folder, ts, StoredName(d1)));
    assert ParsePath(p2) == Some((folder, ts, StoredName(d2)));
    if StoredName(d1) == StoredName(d2) {
      assert p1 == UploadPath(folder, ts, StoredName(d1));
      assert p2 == UploadPath(folder, ts, StoredName(d2));
    }
  }

  /** Two chosen files named `a b.pdf` and `a_b.pdf`, uploaded in one pass,
      collide on one object path. */
  lemma SpaceAndUnderscoreCollide(folder: string, ts: nat, data1: string, data2: string)
    ensures var d1 := Document("a b.pdf", "1.0 KB", "application/pdf", Some(data1),
                               Live(FileHandle("a b.pdf", "application/pdf")), None);
            var d2 := Document("a_b.pdf", "1.0 KB", "application/pdf", Some(data2),
                               Live(FileHandle("a_b.pdf", "application/pdf")), None);
            && NeedsUpload(d1) && NeedsUpload(d2) && d1 != d2
            && DocRequest(d1, folder, ts).path == DocRequest(d2, folder, ts).path
  {
    var d1 := Document("a b.pdf", "1.0 KB", "application/pdf", Some(data1),
                       Live(FileHandle("a b.pdf", "application/pdf")), None);
    var d2 := Document("a_b.pdf", "1.0 KB", "application/pdf", Some(data2),
                       Live(FileHandle("a_b.pdf", "application/pdf")), None);
    assert d1.name != d2.name by {
      assert d1.name[1] != d2.name[1];
    }
    var s1 := Sanitize("a b.pdf");
    var s2 := Sanitize("a_b.pdf");
    assert !KeptChar(' ') && !KeptChar('_');
    assert s1 == s2 by {
      forall k | 0 <= k < 7 ensures s1[k] == s2[k] {
        assert "a b.pdf"[k] == "a_b.pdf"[k] || k == 1;
      }
    }
    SamePathIffSameStoredName(d1, d2, folder, ts);
  }

  /** Pending documents whose names sanitise to distinct names get pairwise
      distinct object paths in one pass, so none of their uploads meets a
      path taken earlier in the pass. */
  lemma DistinctNamesDistinctPaths(docs: seq<Document>, folder: string, ts: nat)
    requires forall i, j :: 0 <= i < j < |docs| && NeedsUpload(docs[i]) && NeedsUpload(docs[j]) ==>
               StoredName(docs[i]) != StoredName(docs[j])
    ensures forall i, j :: 0 <= i < j < |docs| && NeedsUpload(docs[i]) && NeedsUpload(docs[j]) ==>
              DocRequest(docs[i], folder, ts).path != DocRequest(docs[j], folder, ts).path
  {
    forall i, j | 0 <= i < j < |docs| && NeedsUpload(docs[i]) && NeedsUpload(docs[j])
      ensures DocRequest(docs[i], folder, ts).path != DocRequest(docs[j], folder, ts).path
    {
      SamePathIffSameStoredName(docs[i], docs[j], folder, ts);
    }
  }

  /** A pass in which every upload is accepted succeeds. */
  lemma AcceptedUploadsSucceed(docs: seq<Document>, folder: string, ts: nat, up: Uploader)
    requires forall i :: 0 <= i < |docs| && NeedsUpload(docs[i]) ==> up(DocRequest(docs[i], folder, ts)).Success?
    ensures ReconcileAll(docs, folder, ts, up).Success?
  {
    forall i | 0 <= i < |docs| ensures ReconcileDoc(docs[i], folder, ts, up).Success? {
    }
  }

  // ---------------------------------------------------------------------------
  // The rule as the code writes it
  // ---------------------------------------------------------------------------

  /** `if (doc.file)` first, then the data-URL test: any non-null `file`
      counts, including the empty object left by a JSON round trip. */
  predicate NeedsUploadAsWritten(d: Document): (b: bool)
    ensures b <==> NeedsUpload(d) || d.file.Detached?
  {
    !d.file.NoFile? || HasDataUrl(d)
  }

  /** What the code hands to `uploadFile`: `doc.file` whenever it is truthy. */
  function SourceBlobAsWritten(d: Document): Blob
    requires NeedsUploadAsWritten(d)
  {
    match d.file
    case Live(h) => FileBlob(h)
    case Detached => EmptyObject
    case NoFile => DataUrlBlob(d.data.value, d.name, d.mime)
  }

  /** The per-document rule exactly as written in `handleSubmit`. */
  function ReconcileDocAsWritten(d: Document, folder: string, ts: nat, up: Uploader)
    : (r: Result<Document, StoreError>)
    ensures !NeedsUploadAsWritten(d) ==> r == Success(d)
    ensures d.file.Detached? ==> r == Failure(MissingFileName)
  {
    if NeedsUploadAsWritten(d) then
      match UploadFile(SourceBlobAsWritten(d), folder, ts, up)
      case Success(url) => Success(Uploaded(d, url))
      case Failure(e) => Failure(e)
    else Success(d)
  }

  /** A document added through the file dialog and kept in a saved draft can
      never be submitted as written: after the draft is read back its `file`
      is `{}`, and `uploadFile` throws on `file.name.replace` before any
      request is made, whatever the bucket would answer. */
  lemma StoredFileFailsAsWritten(d: Document, folder: string, ts: nat, up: Uploader)
    requires d.file.Live?
    ensures ReconcileDocAsWritten(SerializeDocument(d), folder, ts, up) == Failure(MissingFileName)
  {
  }

  /** Under the corrected rule the same document uploads its saved data URL:
      the pass succeeds exactly when the bucket accepts that upload, and the
      document then carries the URL. */
  lemma StoredFileUploadsCorrected(d: Document, folder: string, ts: nat, up: Uploader)
    requires d.file.Live? && HasDataUrl(d)
    ensures var s := SerializeDocument(d);
            var q := UploadRequest(Bucket, UploadPath(folder, ts, Sanitize(d.name)), DataUrlBlob(d.data.value, d.name, d.mime));
            && NeedsUpload(s)
            && DocRequest(s, folder, ts) == q
            && (ReconcileDoc(s, folder, ts, up).Success? <==> up(q).Success?)
            && (up(q).Success? ==> ReconcileDoc(s, folder, ts, up).value == Uploaded(s, up(q).value))
  {
    var s := SerializeDocument(d);
    assert HasDataUrl(s);
  }

  /** On documents that hold no JSON-detached `File`, the corrected rule and
      the code agree. */
  lemma CorrectedAgreesWithoutDetachedFiles(d: Document, folder: string, ts: nat, up: Uploader)
    requires !d.file.Detached?
    ensures ReconcileDoc(d, folder, ts, up) == ReconcileDocAsWritten(d, folder, ts, up)
  {
  }
}

=== FILE: storage.dfy ===
/** The persistence layer (`src/utils/storage.js`): the mapping between the
    in-memory form and a row of the `policies` table, the update-or-insert
    rule, the list/count/delete helpers with their error swallowing, and the
    path under which an attachment is uploaded.

    The Supabase client is replaced by a `Table` value, a `Link` that says
    whether the store answers at all, and an upload oracle. Timestamps and
    server-generated ids are parameters. */
module Storage {
  import opened Outcomes
  import opened JsText
  import opened PolicyData

  /** The storage bucket attachments are uploaded to. */
  const Bucket := "policy-documents"

  /** An id longer than this is taken for a server-assigned UUID. */
  const IdThreshold := 20

  /** Whether the store answers. `Offline` covers a network failure and the
      fallback client used when no credentials are configured, whose every
      query resolves with an error. */
  datatype Link = Online | Offline(reason: string)

  datatype StoreError =
    | Unreachable(reason: string)      // the store answered with an error
    | NoMatchingRow                    // `.single()` on an update that matched nothing
    | DuplicateKey(id: string)         // an insert whose new id is already taken
    | MissingFileName                  // `file.name` read on an object without one
    | UploadRejected(reason: string)   // the storage bucket refused the upload

  // ---------------------------------------------------------------------------
  // Status
  // ---------------------------------------------------------------------------

  /** The text stored in the `status` column; it reads back as the status
      written. */
  function StatusName(s: Status): (name: string)
    ensures name == "DRAFT" <==> s == Draft
  {
    match s
    case Draft => "DRAFT"
    case Submitted => "SUBMITTED"
  }

  /** Reads a `status` column value back. */
  function ParseStatus(name: string): Option<Status> {
    if name == "DRAFT" then Some(Draft)
    else if name == "SUBMITTED" then Some(Submitted)
    else None
  }

  /** The status `savePolicy` writes: draft exactly when `isDraft`. */
  function StatusOf(isDraft: bool): (s: Status)
    ensures s == Draft <==> isDraft
    ensures s == Submitted <==> !isDraft
  {
    if isDraft then Draft else Submitted
  }

  /** The two column values are distinct and read back as what was written. */
  lemma StatusNameRoundTrip(s: Status)
    ensures ParseStatus(StatusName(s)) == Some(s)
    ensures StatusName(s) == "DRAFT" <==> s == Draft
  {
  }

  // ---------------------------------------------------------------------------
  // JSON serialisation of the form
  // ---------------------------------------------------------------------------

  /** What JSON does to a document: a browser `File` has no enumerable
      properties and is written as `{}`; everything else survives. */
  function SerializeDocument(d: Document): (r: Document)
    ensures !r.file.Live?
    ensures r.file.NoFile? <==> d.file.NoFile?
    ensures r == d.(file := r.file)
  {
    if d.file.Live? then d.(file := Detached) else d
  }

  function SerializeValue(v: Value): Value {
    match v
    case Docs(ds) => Docs(seq(|ds|, i requires 0 <= i < |ds| => SerializeDocument(ds[i])))
    case _ => v
  }

  /** A value holds an in-memory `File` that JSON would lose. */
  predicate HoldsLiveFile(v: Value) {
    v.Docs? && exists i :: 0 <= i < |v.docs| && v.docs[i].file.Live?
  }

  /** Serialising changes a value only if it holds a live `File`, and a second
      serialisation changes nothing. */
  lemma SerializeValueFacts(v: Value)
    ensures !HoldsLiveFile(v) ==> SerializeValue(v) == v
    ensures !HoldsLiveFile(SerializeValue(v))
    ensures SerializeValue(SerializeValue(v)) == SerializeValue(v)
  {
    if v.Docs? && !HoldsLiveFile(v) {
      assert SerializeValue(v).docs == v.docs;
    }
  }

  /** The `form_data` written by `savePolicy`: the form without its `id` key,
      as JSON stores it. Every other key is kept. */
  function FormPayload(form: Form): (data: Form)
    ensures IdKey !in data
    ensures data.Keys == form.Keys - {IdKey}
    ensures forall k :: k in data ==> data[k] == SerializeValue(form[k])
  {
    map k | k in form && k != IdKey :: SerializeValue(form[k])
  }

  // ---------------------------------------------------------------------------
  // Rows back to forms
  // ---------------------------------------------------------------------------

  /** The keys the store merges over `form_data` on read. */
  const MetadataKeys: set<string> := {IdKey, StatusKey, LastModifiedKey}

  /** `getPolicies`' unwrapping of a row: `form_data` spread first, then `id`,
      `lastModified` and `status` from the row's columns. */
  function Unwrap(rec: Record): (x: Form)
    ensures x.Keys == rec.formData.Keys + MetadataKeys
    ensures x[IdKey] == Str(rec.id)
    ensures x[StatusKey] == Str(StatusName(rec.status))
    ensures x[LastModifiedKey] == Str(rec.updatedAt)
    ensures forall k :: k in rec.formData && k !in MetadataKeys ==> x[k] == rec.formData[k]
  {
    rec.formData
      + map[IdKey := Str(rec.id)]
      + map[LastModifiedKey := Str(rec.updatedAt)]
      + map[StatusKey := Str(StatusName(rec.status))]
  }

  /** What `savePolicy` resolves with: `form_data` spread first, then `id` and
      `status`. Unlike a read, `lastModified` is whatever `form_data` held. */
  function SavedView(rec: Record): (x: Form)
    ensures x.Keys == rec.formData.Keys + {IdKey, StatusKey}
    ensures x[IdKey] == Str(rec.id)
    ensures x[StatusKey] == Str(StatusName(rec.status))
    ensures forall k :: k in rec.formData && k != IdKey && k != StatusKey ==> x[k] == rec.formData[k]
  {
    rec.formData + map[IdKey := Str(rec.id)] + map[StatusKey := Str(StatusName(rec.status))]
  }

  // ---------------------------------------------------------------------------
  // savePolicy
  // ---------------------------------------------------------------------------

  /** `id.length` where JavaScript has one: strings and arrays. */
  function IdLength(v: Value): Option<nat> {
    match v
    case Str(s) => Some(|s|)
    case Docs(ds) => Some(|ds|)
    case Rows(rs) => Some(|rs|)
    case _ => None
  }

  /** `id && id.length > 20`: an absent, null, numeric or short id fails the
      test (a number has no `length`, and `undefined > 20` is false). */
  predicate UsesUpdatePath(form: Form): (update: bool)
    ensures update ==> IdKey in form
    ensures IdKey in form && form[IdKey].Str? ==> (update <==> |form[IdKey].s| > IdThreshold)
    ensures IdKey in form && (form[IdKey].Null? || form[IdKey].Num?) ==> !update
  {
    IdKey in form && IdLength(form[IdKey]).Some? && IdLength(form[IdKey]).value > IdThreshold
  }

  /** The position of the row `.eq('id', id)` selects, if any. */
  function RowIndex(recs: seq<Record>, id: Value): (k: Option<nat>)
    ensures k.Some? ==> k.value < |recs| && id == Str(recs[k.value].id)
    ensures k.None? ==> forall j :: 0 <= j < |recs| ==> id != Str(recs[j].id)
    decreases |recs|
  {
    if |recs| == 0 then None
    else if id == Str(recs[|recs| - 1].id) then Some(|recs| - 1)
    else RowIndex(recs[..|recs| - 1], id)
  }

  predicate IdTaken(t: Table, id: string) {
    exists j :: 0 <= j < |t.records| && t.records[j].id == id
  }

  /** Primary-key uniqueness of the `policies` table. */
  predicate UniqueIds(t: Table) {
    forall i, j :: 0 <= i < j < |t.records| ==> t.records[i].id != t.records[j].id
  }

  /** What the caller supplies in place of the store's side of a save: whether
      it answers, the `updated_at` timestamp, and the id the database would
      generate for an insert. */
  datatype SaveEnv = SaveEnv(link: Link, now: string, freshId: string)

  /** `savePolicy(policyData, isDraft)`: update the row with the form's id when
      that id looks server-assigned, insert a new row otherwise; resolve with
      the saved row unwrapped, and reject (rethrow) on any store error. */
  function SavePolicy(t: Table, form: Form, isDraft: bool, env: SaveEnv)
    : (r: Result<(Table, Form), StoreError>)
    ensures env.link.Offline? ==> r == Failure(Unreachable(env.link.reason))
    ensures r.Failure? <==>
              || env.link.Offline?
              || (UsesUpdatePath(form) && RowIndex(t.records, form[IdKey]).None?)
              || (!UsesUpdatePath(form) && IdTaken(t, env.freshId))
    ensures r.Success? && UsesUpdatePath(form) ==>
              var k := RowIndex(t.records, form[IdKey]).value;
              var rec := t.records[k].(status := StatusOf(isDraft), formData := FormPayload(form), updatedAt := env.now);
              r.value == (Table(t.records[k := rec]), SavedView(rec))
    ensures r.Success? && !UsesUpdatePath(form) ==>
              var rec := Record(env.freshId, StatusOf(isDraft), FormPayload(form), env.now);
              r.value == (Table(t.records + [rec]), SavedView(rec))
  {
    var status := StatusOf(isDraft);
    var payload := FormPayload(form);
    if env.link.Offline? then Failure(Unreachable(env.link.reason))
    else if UsesUpdatePath(form) then
      match RowIndex(t.records, form[IdKey])
      case None => Failure(NoMatchingRow)
      case Some(k) =>
        var rec := t.records[k].(status := status, formData := payload, updatedAt := env.now);
        Success((Table(t.records[k := rec]), SavedView(rec)))
    else if IdTaken(t, env.freshId) then Failure(DuplicateKey(env.freshId))
    else
      var rec := Record(env.freshId, status, payload, env.now);
      Success((Table(t.records + [rec]), SavedView(rec)))
  }

  /** A successful save keeps ids unique: an update leaves every id where it
      was, and an insert only succeeds with an id not yet taken. */
  lemma SavePreservesUniqueIds(t: Table, form: Form, isDraft: bool, env: SaveEnv)
    requires UniqueIds(t)
    requires SavePolicy(t, form, isDraft, env).Success?
    ensures UniqueIds(SavePolicy(t, form, isDraft, env).value.0)
  {
    var t' := SavePolicy(t, form, isDraft, env).value.0;
    if UsesUpdatePath(form) {
      assert forall j :: 0 <= j < |t.records| ==> t'.records[j].id == t.records[j].id;
    } else {
      assert !IdTaken(t, env.freshId);
      forall i, j | 0 <= i < j < |t'.records|
        ensures t'.records[i].id != t'.records[j].id
      {
        if j == |t.records| {
          assert t'.records[i].id == t.records[i].id;
        }
      }
    }
  }

  /** The value `savePolicy` resolves with carries the row's id and the
      written status; every other key of the input form except `id` comes
      back as JSON stored it. */
  lemma SavedViewReflectsInput(t: Table, form: Form, isDraft: bool, env: SaveEnv)
    requires SavePolicy(t, form, isDraft, env).Success?
    ensures var saved := SavePolicy(t, form, isDraft, env).value.1;
            && saved[StatusKey] == Str(StatusName(StatusOf(isDraft)))
            && (!UsesUpdatePath(form) ==> saved[IdKey] == Str(env.freshId))
            && (UsesUpdatePath(form) ==> saved[IdKey] == form[IdKey])
            && forall k :: k in form && k != IdKey && k != StatusKey ==>
                 k in saved && saved[k] == SerializeValue(form[k])
  {
  }

  // ---------------------------------------------------------------------------
  // getPolicies and getCounts
  // ---------------------------------------------------------------------------

  /** The number of rows with status `s`. */
  function CountStatus(recs: seq<Record>, s: Status): nat
    decreases |recs|
  {
    if |recs| == 0 then 0
    else CountStatus(recs[..|recs| - 1], s) + (if recs[|recs| - 1].status == s then 1 else 0)
  }

  lemma CountStatusSnoc(recs: seq<Record>, last: Record, s: Status)
    ensures CountStatus(recs + [last], s) == CountStatus(recs, s) + (if last.status == s then 1 else 0)
  {
    assert (recs + [last])[..|recs|] == recs;
  }

  /** The rows with status `s`, newest first, each unwrapped. */
  function ListStatus(recs: seq<Record>, s: Status): (r: seq<Form>)
    ensures |r| == CountStatus(recs, s)
    ensures forall j :: 0 <= j < |recs| && recs[j].status == s ==> Unwrap(recs[j]) in r
    ensures forall x :: x in r ==> exists j :: 0 <= j < |recs| && recs[j].status == s && x == Unwrap(recs[j])
    decreases |recs|
  {
    if |recs| == 0 then []
    else
      var last := recs[|recs| - 1];
      var init := recs[..|recs| - 1];
      var rest := ListStatus(init, s);
      assert forall j :: 0 <= j < |init| ==> init[j] == recs[j];
      (if last.status == s then [Unwrap(last)] else []) + rest
  }

  /** Listing one more row puts it in front of the earlier ones (when it has
      status `s`) and shifts them by one. */
  lemma ListStatusSnoc(recs: seq<Record>, s: Status, k: nat)
    requires |recs| > 0 && k < |ListStatus(recs[..|recs| - 1], s)|
    ensures var shift := if recs[|recs| - 1].status == s then 1 else 0;
            && k + shift < |ListStatus(recs, s)|
            && ListStatus(recs, s)[k + shift] == ListStatus(recs[..|recs| - 1], s)[k]
  {
  }

  /** Newest first: row `j` is listed after exactly the rows of its status
      created after it. */
  lemma {:induction false} ListStatusNewestFirst(recs: seq<Record>, s: Status, j: nat)
    requires j < |recs| && recs[j].status == s
    ensures CountStatus(recs[j + 1..], s) < |ListStatus(recs, s)|
    ensures ListStatus(recs, s)[CountStatus(recs[j + 1..], s)] == Unwrap(recs[j])
    decreases |recs|
  {
    var last := recs[|recs| - 1];
    var init := recs[..|recs| - 1];
    if j == |init| {
      assert recs[j + 1..] == [];
    } else {
      assert recs == init + [last];
      assert recs[j] == init[j];
      ListStatusNewestFirst(init, s, j);
      var k := CountStatus(init[j + 1..], s);
      ListStatusSnoc(recs, s, k);
      assert recs[j + 1..] == init[j + 1..] + [last];
      CountStatusSnoc(init[j + 1..], last, s);
    }
  }

  /** `getPolicies(type)`: the rows of that status, newest first, unwrapped;
      an empty list when the store answers with an error. */
  function GetPolicies(t: Table, s: Status, link: Link): (r: seq<Form>)
    ensures link.Offline? ==> r == []
    ensures link.Online? ==> |r| == CountStatus(t.records, s)
    ensures link.Online? ==>
              forall j :: 0 <= j < |t.records| && t.records[j].status == s ==> Unwrap(t.records[j]) in r
    ensures link.Online? ==>
              forall j :: 0 <= j < |t.records| && t.records[j].status == s ==>
                CountStatus(t.records[j + 1..], s) < |r| && r[CountStatus(t.records[j + 1..], s)] == Unwrap(t.records[j])
    ensures forall x :: x in r ==>
              exists j :: 0 <= j < |t.records| && t.records[j].status == s && x == Unwrap(t.records[j])
  {
    if link.Offline? then []
    else
      var r := ListStatus(t.records, s);
      assert forall j :: 0 <= j < |t.records| && t.records[j].status == s ==>
               CountStatus(t.records[j + 1..], s) < |r| && r[CountStatus(t.records[j + 1..], s)] == Unwrap(t.records[j]) by {
        forall j | 0 <= j < |t.records| && t.records[j].status == s
          ensures CountStatus(t.records[j + 1..], s) < |r| && r[CountStatus(t.records[j + 1..], s)] == Unwrap(t.records[j])
        {
          ListStatusNewestFirst(t.records, s, j);
        }
      }
      r
  }

  datatype Counts = Counts(submitted: nat, drafts: nat)

  /** `getCounts()`: the number of submitted and draft rows; zero for a count
      the store does not deliver. */
  function GetCounts(t: Table, link: Link): (c: Counts)
    ensures link.Offline? ==> c == Counts(0, 0)
    ensures link.Online? ==> c.submitted == CountStatus(t.records, Submitted)
    ensures link.Online? ==> c.drafts == CountStatus(t.records, Draft)
  {
    if link.Offline? then Counts(0, 0)
    else Counts(CountStatus(t.records, Submitted), CountStatus(t.records, Draft))
  }

  /** Every row is a draft or a submission, so the two counts add up to the
      table's size. */
  lemma {:induction false} CountsPartition(recs: seq<Record>)
    ensures CountStatus(recs, Submitted) + CountStatus(recs, Draft) == |recs|
    decreases |recs|
  {
    if |recs| > 0 {
      CountsPartition(recs[..|recs| - 1]);
    }
  }

  /** The counts on the home screen agree with the lengths of the two lists,
      and together cover every row. */
  lemma CountsMatchLists(t: Table)
    ensures GetCounts(t, Online).submitted == |GetPolicies(t, Submitted, Online)|
    ensures GetCounts(t, Online).drafts == |GetPolicies(t, Draft, Online)|
    ensures GetCounts(t, Online).submitted + GetCounts(t, Online).drafts == |t.records|
  {
    CountsPartition(t.records);
  }

  /** Every key of `form` except the metadata keys comes back unchanged up to
      JSON, and no other key appears. */
  predicate ReadBackOf(x: Form, form: Form) {
    && x.Keys - MetadataKeys == form.Keys - MetadataKeys
    && forall k :: k in x && k !in MetadataKeys ==> k in form && x[k] == SerializeValue(form[k])
  }

  /** A row written from `form` unwraps to a read-back of `form`. */
  lemma UnwrapPayload(rec: Record, form: Form)
    requires rec.formData == FormPayload(form)
    ensures ReadBackOf(Unwrap(rec), form)
  {
    var x := Unwrap(rec);
    assert x.Keys - MetadataKeys == form.Keys - MetadataKeys;
  }

  /** Saving a form and listing that status again yields the saved policy,
      with the status written and every non-metadata key intact up to JSON. */
  lemma SaveThenList(t: Table, form: Form, isDraft: bool, env: SaveEnv)
    requires SavePolicy(t, form, isDraft, env).Success?
    ensures var (t', saved) := SavePolicy(t, form, isDraft, env).value;
            exists x :: x in GetPolicies(t', StatusOf(isDraft), Online)
                        && x[IdKey] == saved[IdKey]
                        && x[StatusKey] == Str(StatusName(StatusOf(isDraft)))
                        && ReadBackOf(x, form)
  {
    var (t', saved) := SavePolicy(t, form, isDraft, env).value;
    var k := if UsesUpdatePath(form) then RowIndex(t.records, form[IdKey]).value else |t.records|;
    var rec := t'.records[k];
    assert rec.status == StatusOf(isDraft) && rec.formData == FormPayload(form);
    assert saved == SavedView(rec);
    UnwrapPayload(rec, form);
    var x := Unwrap(rec);
    assert x in GetPolicies(t', StatusOf(isDraft), Online);
  }

  // ---------------------------------------------------------------------------
  // deletePolicy
  // ---------------------------------------------------------------------------

  /** `deletePolicy(id)`: removes the rows with that id; an error from the
      store is logged and swallowed, so the call always completes and the
      result is a table, never an error. The rows that stay keep their order:
      kept row `j` sits after exactly the kept rows before it. */
  function DeletePolicy(t: Table, id: Value, link: Link): (r: Table)
    ensures link.Offline? ==> r == t
    ensures link.Online? ==> |r.records| == KeptCount(t.records, id) <= |t.records|
    ensures forall x :: x in r.records ==> x in t.records
    ensures link.Online? ==> forall x :: x in r.records ==> Kept(x, id)
    ensures link.Online? ==>
              forall j :: 0 <= j < |t.records| && Kept(t.records[j], id) ==>
                KeptCount(t.records[..j], id) < |r.records| && r.records[KeptCount(t.records[..j], id)] == t.records[j]
  {
    if link.Offline? then t
    else Table(Without(t.records, id))
  }

  /** A delete of `id` keeps the row: its id is not `id`. */
  predicate Kept(rec: Record, id: Value) {
    id != Str(rec.id)
  }

  /** The number of rows whose id differs from `id`. */
  function KeptCount(recs: seq<Record>, id: Value): nat
    decreases |recs|
  {
    if |recs| == 0 then 0
    else KeptCount(recs[..|recs| - 1], id) + (if Kept(recs[|recs| - 1], id) then 1 else 0)
  }

  /** The rows whose id differs from `id`, in their original order: kept row
      `j` comes after exactly the kept rows before it, and nothing else is
      there. */
  function Without(recs: seq<Record>, id: Value): (r: seq<Record>)
    ensures |r| == KeptCount(recs, id) <= |recs|
    ensures forall x :: x in r ==> x in recs && Kept(x, id)
    ensures forall j :: 0 <= j < |recs| && Kept(recs[j], id) ==>
              KeptCount(recs[..j], id) < |r| && r[KeptCount(recs[..j], id)] == recs[j]
    decreases |recs|
  {
    if |recs| == 0 then []
    else
      var init := recs[..|recs| - 1];
      var last := recs[|recs| - 1];
      var rest := Without(init, id);
      assert recs == init + [last];
      WithoutStep(init, last, id, rest);
      rest + (if Kept(last, id) then [last] else [])
  }

  /** The step of `Without`: the kept rows of `init`, followed by `last` if
      it is kept, put every kept row of `init + [last]` in its place. */
  lemma WithoutStep(init: seq<Record>, last: Record, id: Value, rest: seq<Record>)
    requires |rest| == KeptCount(init, id)
    requires forall j :: 0 <= j < |init| && Kept(init[j], id) ==>
               KeptCount(init[..j], id) < |rest| && rest[KeptCount(init[..j], id)] == init[j]
    ensures var recs, r := init + [last], rest + (if Kept(last, id) then [last] else []);
            forall j :: 0 <= j < |recs| && Kept(recs[j], id) ==>
              KeptCount(recs[..j], id) < |r| && r[KeptCount(recs[..j], id)] == recs[j]
  {
    var recs, r := init + [last], rest + (if Kept(last, id) then [last] else []);
    assert recs[..|init|] == init;
    forall j | 0 <= j < |recs| && Kept(recs[j], id)
      ensures KeptCount(recs[..j], id) < |r| && r[KeptCount(recs[..j], id)] == recs[j]
    {
      if j < |init| {
        assert recs[..j] == init[..j] && recs[j] == init[j];
        assert r[KeptCount(init[..j], id)] == rest[KeptCount(init[..j], id)];
      }
    }
  }

  /** Deleting keeps the table's ids unique. */
  lemma {:induction false} WithoutKeepsUniqueIds(recs: seq<Record>, id: Value)
    requires UniqueIds(Table(recs))
    ensures UniqueIds(Table(Without(recs, id)))
    decreases |recs|
  {
    if |recs| > 0 {
      var init := recs[..|recs| - 1];
      var last := recs[|recs| - 1];
      assert UniqueIds(Table(init)) by {
        forall i, j | 0 <= i < j < |init| ensures init[i].id != init[j].id {
          assert init[i] == recs[i] && init[j] == recs[j];
        }
      }
      WithoutKeepsUniqueIds(init, id);
      var rest := Without(init, id);
      if Kept(last, id) {
        forall x | x in rest ensures x.id != last.id {
          var i :| 0 <= i < |init| && init[i] == x;
          assert recs[i] == x;
        }
        assert Without(recs, id) == rest + [last];
      } else {
        assert Without(recs, id) == rest;
      }
    }
  }

  /** A delete, whether or not the store answers, keeps the ids unique. */
  lemma DeleteKeepsUniqueIds(t: Table, id: Value, link: Link)
    requires UniqueIds(t)
    ensures UniqueIds(DeletePolicy(t, id, link))
  {
    if link.Online? {
      WithoutKeepsUniqueIds(t.records, id);
    }
  }

  // ---------------------------------------------------------------------------
  // uploadFile
  // ---------------------------------------------------------------------------

  /** The characters the filename rule keeps: `[a-zA-Z0-9.-]`. */
  predicate KeptChar(c: char) {
    ('a' <= c <= 'z') || ('A' <= c <= 'Z') || IsDigit(c) || c == '.' || c == '-'
  }

  /** `name.replace(/[^a-zA-Z0-9.-]/g, '_')`, one character at a time. */
  function Sanitize(name: string): (r: string)
    ensures |r| == |name|
    ensures forall i :: 0 <= i < |r| ==> KeptChar(r[i]) || r[i] == '_'
    ensures forall i :: 0 <= i < |r| && KeptChar(name[i]) ==> r[i] == name[i]
    ensures forall i :: 0 <= i < |r| && !KeptChar(name[i]) ==> r[i] == '_'
    decreases |name|
  {
    if |name| == 0 then ""
    else [if KeptChar(name[0]) then name[0] else '_'] + Sanitize(name[1..])
  }

  /** A sanitised name never holds a path separator. */
  lemma SanitizedHasNoSlash(name: string)
    ensures '/' !in Sanitize(name)
  {
  }

  /** Sanitising a sanitised name changes nothing. */
  lemma SanitizeIdempotent(name: string)
    ensures Sanitize(Sanitize(name)) == Sanitize(name)
  {
    var s := Sanitize(name);
    assert forall i :: 0 <= i < |s| ==> Sanitize(s)[i] == s[i];
  }

  /** The object path of an upload: `folder/timestamp_safeName`, or
      `timestamp_safeName` when the folder is empty. */
  function UploadPath(folder: string, ts: nat, safeName: string): (path: string)
    ensures folder != "" ==> StartsWith(path, folder + "/")
    ensures EndsWith(path, "_" + safeName)
  {
    var filePart := DecimalString(ts) + "_" + safeName;
    if folder != "" then folder + "/" + filePart else filePart
  }

  /** Splits an object path back into folder, timestamp and file name: the
      folder ends at the last `/`, the timestamp at the first `_` after it. */
  function ParsePath(path: string): Option<(string, nat, string)> {
    var (folder, rest) :=
      match LastIndexOf(path, '/')
      case None => ("", path)
      case Some(k) => (path[..k], path[k + 1..]);
    match IndexOf(rest, '_')
    case None => None
    case Some(u) =>
      if 0 < u && AllDigits(rest[..u]) then Some((folder, ParseDecimal(rest[..u]), rest[u + 1..]))
      else None
  }

  /** Digits hold neither separator. */
  lemma DigitsHaveNoSeparators(digits: string)
    requires AllDigits(digits)
    ensures '/' !in digits && '_' !in digits
  {
  }

  /** The file part `digits_safe` of a path: no `/`, and its first `_` ends the
      digits. */
  lemma FilePartShape(digits: string, safe: string)
    requires AllDigits(digits) && '/' !in safe
    ensures var rest := digits + "_" + safe;
            && '/' !in rest
            && IndexOf(rest, '_') == Some(|digits|)
            && rest[..|digits|] == digits && rest[|digits| + 1..] == safe
  {
    var rest := digits + "_" + safe;
    DigitsHaveNoSeparators(digits);
    assert rest[|digits|] == '_';
    assert rest[..|digits|] == digits;
    assert rest[|digits| + 1..] == safe;
  }

  /** In `folder/rest` with no `/` in `rest`, the last `/` ends the folder. */
  lemma FolderSplit(folder: string, rest: string)
    requires '/' !in rest
    ensures var path := folder + "/" + rest;
            && LastIndexOf(path, '/') == Some(|folder|)
            && path[..|folder|] == folder && path[|folder| + 1..] == rest
  {
    var path := folder + "/" + rest;
    assert path[|folder|] == '/';
    assert path[|folder| + 1..] == rest;
    assert path[..|folder|] == folder;
  }

  /** Parsing a path made of a folder and a `digits_safe` file part. */
  lemma ParseComposedPath(folder: string, digits: string, safe: string)
    requires AllDigits(digits) && |digits| > 0 && '/' !in safe
    ensures var rest := digits + "_" + safe;
            ParsePath(if folder != "" then folder + "/" + rest else rest)
              == Some((folder, ParseDecimal(digits), safe))
  {
    var rest := digits + "_" + safe;
    FilePartShape(digits, safe);
    if folder != "" {
      FolderSplit(folder, rest);
    }
  }

  /** The path of an upload determines its folder, timestamp and sanitised
      name: two uploads with different parts never share a path. */
  lemma UploadPathRoundTrip(folder: string, ts: nat, name: string)
    ensures ParsePath(UploadPath(folder, ts, Sanitize(name))) == Some((folder, ts, Sanitize(name)))
  {
    SanitizedHasNoSlash(name);
    ParseDecimalString(ts);
    ParseComposedPath(folder, DecimalString(ts), Sanitize(name));
  }

  /** What `uploadFile` is handed: a browser `File`, the `File` built from a
      captured photo's data URL, or the empty object a `File` becomes after a
      JSON round trip (which has no `name`). */
  datatype Blob =
    | FileBlob(handle: FileHandle)
    | DataUrlBlob(dataUrl: string, name: string, mime: string)
    | EmptyObject

  function BlobName(b: Blob): Option<string> {
    match b
    case FileBlob(h) => Some(h.name)
    case DataUrlBlob(_, n, _) => Some(n)
    case EmptyObject => None
  }

  /** One call to the storage bucket's `upload`. */
  datatype UploadRequest = UploadRequest(bucket: string, path: string, blob: Blob)

  /** The storage bucket: for a request, the public URL of the stored object
      or the reason it was refused. */
  type Uploader = UploadRequest -> Result<string, string>

  /** The request `uploadFile(file, folder)` issues, or `None` when reading
      the file's name throws before any request is made. */
  function RequestFor(b: Blob, folder: string, ts: nat): (q: Option<UploadRequest>)
    ensures q.None? <==> BlobName(b).None?
    ensures q.Some? ==> q.value.bucket == Bucket && q.value.blob == b
    ensures q.Some? ==> ParsePath(q.value.path) == Some((folder, ts, Sanitize(BlobName(b).value)))
  {
    match BlobName(b)
    case None => None
    case Some(n) =>
      UploadPathRoundTrip(folder, ts, n);
      Some(UploadRequest(Bucket, UploadPath(folder, ts, Sanitize(n)), b))
  }

  /** `uploadFile(file, folderName)`: uploads under the sanitised path and
      resolves with the public URL; every error is rethrown. */
  function UploadFile(b: Blob, folder: string, ts: nat, up: Uploader): (r: Result<string, StoreError>)
    ensures BlobName(b).None? ==> r == Failure(MissingFileName)
    ensures BlobName(b).Some? ==>
              match up(RequestFor(b, folder, ts).value)
              case Success(url) => r == Success(url)
              case Failure(e) => r == Failure(UploadRejected(e))
  {
    match RequestFor(b, folder, ts)
    case None => Failure(MissingFileName)
    case Some(q) =>
      match up(q)
      case Success(url) => Success(url)
      case Failure(e) => Failure(UploadRejected(e))
  }
}
